=== FILE: README.md ===
# Call dashboard helpers in Dafny

This project models the small pure helpers of a web dashboard for an
outbound calling service, and proves what they promise:

- the call time picker of the schedule form: 24-hour clock readings shown
  as hour (1-12), minute and AM/PM selectors, and `to24HourFormat` turning
  the selectors back into "HH:MM"; the call-gap display default;
- `normalizeToSeconds`, which turns a date, a time of day, a date-time or a
  duration into whole epoch seconds and answers 0 whenever anything throws;
- the running-calls summary: the cost estimate at fixed per-minute rates
  and the singular/plural title;
- the file-count endpoint: the extension dispatch, the missing-file and
  unsupported-format answers, and the count of rows holding a number;
- the call-log status filter: the query-parameter update on a change, the
  status shown in the select, and the option labels;
- the "Download" button's cell mapping and the spreadsheet export's
  empty-data guard and column widths.

The modules follow the source files: `CallSettingsForm`,
`NormalizeToSeconds`, `CallLogInfo`, `FilesRoute`, `TableFilter`,
`DownloadExcel` and `ExportToExcel`. Below them sit `JsText` (the
ECMAScript string operations the code calls: `trim`, `padStart`, `split`,
`endsWith`, ASCII `toLowerCase`/`toUpperCase`, `replace`, `parseInt`,
`String(n)`, UTF-16 `length`), `JsValue` (numbers with NaN, JavaScript
values and truthiness, plain objects as ordered key/value lists), `JsDate`
(a clock and a fixed time-zone offset), `Sequences` (the first
occurrence of an element, sequences without repeats) and `Wrappers`
(`Option`).

Things the code cannot compute on its own are parameters: `Number(text)`
(`NumberParser`), `String(number)` for every finite number, whole ones
included, in the cell text and the title (`NumberFormatter`),
luxon's `DateTime.fromISO` (an optional instant), the current time and the
host zone (`Clock`), and the CSV and Excel readers (`SheetReader`, whose
`None` stands for a thrown exception).

Behaviour worth knowing:

- "duration" takes `Math.floor`, so -1.5 becomes -2; negative durations
  are accepted.
- An ISO string luxon cannot parse gives an invalid DateTime, whose
  `toSeconds()` is NaN, so "date" and "datetime" return NaN: nothing
  throws, and the 0 of the `catch` does not apply.
- "time" with a part that is not a number throws (luxon's `set` rejects
  NaN units) and so returns 0; a "time" without a minute part keeps the
  current minute.
- Dates and times are read in the host's local time zone, which the model
  takes as a fixed offset from UTC.

## Model

| member | source | states |
|---|---|---|
| CallSettingsForm.Hour24 | features/schedule/components/CallSettingsForm.tsx:132-134 | for a selector hour in 1..12, "AM" gives 0..11 and "PM" gives 12..23, each the hour itself or 12 away from it; any other AM/PM text leaves the hour as parsed |
| CallSettingsForm.Hour24Range | features/schedule/components/CallSettingsForm.tsx:132-134 | for a selector hour 1..12 the 24-hour hour is h mod 12, plus 12 for PM: 12 AM is 0, 12 PM is 12, other PM hours gain 12; it lies in 0..23 and is at least 12 exactly for PM |
| CallSettingsForm.To24HourFormat | features/schedule/components/CallSettingsForm.tsx:131-140 | the minute string appears unchanged at the end, only left-padded with "0" to two characters, after a ':'; an hour `parseInt` cannot read prints as "NaN" |
| CallSettingsForm.To24HourFormatValid | features/schedule/components/CallSettingsForm.tsx:131-136 | for a selector hour 1..12 the output is a two-digit zero-padded hour whose value is the 24-hour hour, then ':' and the padded minute |
| CallSettingsForm.PickerReading | features/schedule/components/CallSettingsForm.tsx:152-158 | the hour selector parses to a value in 1..12 congruent to the 24-hour hour mod 12; AM/PM is "PM" exactly from hour 12 on; the minute is two digits reading the minute |
| CallSettingsForm.PickerReadingOptions | features/schedule/components/CallSettingsForm.tsx:152-214 | the hour a reading shows is one of the hour selector's options and its minute is the minute selector's option at that minute, so the selectors can display every reading |
| CallSettingsForm.HourOptionsRead | features/schedule/components/CallSettingsForm.tsx:205 | the hour selector offers twelve options, option i reading as the number i + 1 |
| CallSettingsForm.MinuteOptionsRead | features/schedule/components/CallSettingsForm.tsx:212-214 | the minute selector offers sixty options, option i being two digits that read as i |
| CallSettingsForm.PickerRoundTrip | features/schedule/components/CallSettingsForm.tsx:131-161 | for every h in 0..23 and m in 0..59 the selectors of h:m converted back give exactly the "HH:MM" of h and m |
| CallSettingsForm.InitialInstant | features/schedule/components/CallSettingsForm.tsx:151 | missing, zero or NaN seconds start from the current time; otherwise the Date is invalid exactly when seconds × 1000, truncated toward zero, lies outside the Date range, and a valid Date falls in the second holding that millisecond; a whole non-zero number of seconds in range starts from that second |
| CallSettingsForm.PickerAt | features/schedule/components/CallSettingsForm.tsx:152-158 | the hour selector parses to the local hour mod 12 within 1..12 and is one of the hour selector's options, "PM" exactly from local noon on, and the minute is the minute selector's option for the local minute, two digits reading it |
| CallSettingsForm.TimeFromSeconds | features/schedule/components/CallSettingsForm.tsx:150-161 | for a valid initial instant the hour selector parses to a value in 1..12 agreeing with the local hour mod 12, it is one of the hour selector's options; AM/PM is "PM" exactly from local noon on; the minute is the minute selector's option for the local minute, two digits reading it; an Invalid Date reads hour "12", minute "NaN", "AM" |
| CallSettingsForm.GapShown | features/schedule/components/CallSettingsForm.tsx:101-104 | an unset, zero or NaN gap shows as 5 seconds, any other gap as itself; what is shown is never falsy |
| CallSettingsForm.PickedTimeNormalizes | lib/normalizeToSeconds.ts:16-27 | the picker's "HH:MM" for any instant, normalised as a "time", is today's local midnight plus 3600 times the instant's local hour plus 60 times its local minute |
| CallSettingsForm.NormalizePickerText | lib/normalizeToSeconds.ts:16-27 | the "HH:MM" text of h:m normalises to today's midnight plus 3600h + 60m |
| NormalizeToSeconds.Normalize | lib/normalizeToSeconds.ts:5-43 | every number returned is whole; a thrown error yields 0; an unsupported kind yields 0; NaN can come only from the four supported kinds |
| NormalizeToSeconds.Evaluate | lib/normalizeToSeconds.ts:11-38 | the `switch` throws exactly for an unsupported kind or a failing "time" branch, so "date", "datetime" and "duration" never throw; every finite number it returns is whole; for a parsed ISO instant t, "datetime" is the whole second holding t and "date" a local midnight within the day before t; an unparsed one gives NaN |
| NormalizeToSeconds.TimeOfDay | lib/normalizeToSeconds.ts:16-27 | a number value throws, having no `split`; every finite result is a whole number of seconds |
| NormalizeToSeconds.LocalToEpoch | lib/normalizeToSeconds.ts:26 | a local time gives a finite result exactly when it lies in the Date range, and then the corresponding epoch second |
| NormalizeToSeconds.DurationIsFloor | lib/normalizeToSeconds.ts:33-35 | "duration" is NaN exactly for a NaN value, otherwise the largest whole number not above the value |
| NormalizeToSeconds.TimeIsTodayAt | lib/normalizeToSeconds.ts:16-27 | "HH:MM" with whole numbers is today's local midnight plus 3600·HH + 60·MM, and the local clock then reads HH:MM:00 modulo a day |
| NormalizeToSeconds.TimeFailureIsZero | lib/normalizeToSeconds.ts:16-42 | a "time" value that is a number, or whose hour or minute part is not a number, is caught and gives 0 |
| NormalizeToSeconds.UnsupportedKindIsZero | lib/normalizeToSeconds.ts:36-42 | any other kind throws inside the `try` and the function returns 0 |
| NormalizeToSeconds.DateStartsDatetimeDay | lib/normalizeToSeconds.ts:12-32 | for one ISO string "date" is a local midnight, never later than "datetime" and less than a day before it; for a parsed instant t, "datetime" is the whole second holding t and "date" lies at most t and more than t minus a day; an unparsable string gives NaN for both |
| CallLogInfo.TotalCost | features/schedule/components/CallLogInfo.tsx:22-32 | 60 times the cost is 0.153 × calls × seconds; zero calls or zero duration cost 0; non-negative inputs cost at least 0 |
| CallLogInfo.CostMonotone | features/schedule/components/CallLogInfo.tsx:29-32 | for non-negative inputs the cost does not decrease when the calls or the duration grow |
| CallLogInfo.CostAdditive | features/schedule/components/CallLogInfo.tsx:29-32 | the cost is additive in the call count and in the duration |
| CallLogInfo.CostExample | features/schedule/components/CallLogInfo.tsx:29-32 | 460 calls of 300 seconds cost exactly 351.9 |
| CallLogInfo.PluralEnding | features/schedule/components/CallLogInfo.tsx:44 | "s have" exactly when there is more than one call, " has" otherwise, zero included |
| CallLogInfo.Title | features/schedule/components/CallLogInfo.tsx:43-44 | the title reads "calls have been started" for more than one call and "call has been started" otherwise |
| FilesRoute.IsNumericValue | app/api/files/route.ts:68-77 | a number counts exactly when it is not NaN, a string exactly when it is not blank and its trimmed text converts to a number, and no other value counts |
| FilesRoute.IsNumericRow | app/api/files/route.ts:68-78 | a row counts exactly when one of its values is numeric |
| FilesRoute.NumericRows | app/api/files/route.ts:66-79 | every kept row holds a numeric value, and no more rows are kept than given |
| FilesRoute.NumericRowsMembers | app/api/files/route.ts:66-79 | the kept rows are rows of the upload holding a numeric value, and every such row is kept |
| FilesRoute.NumericRowsOne | app/api/files/route.ts:66-79 | one row is kept exactly when some value is a non-NaN number or a trimmed non-empty string that converts to a number |
| FilesRoute.NumericRowsAppend | app/api/files/route.ts:66-79 | filtering a concatenation is the concatenation of the filtered parts, order kept |
| FilesRoute.NumericCountAdditive | app/api/files/route.ts:65-80 | the count of A followed by B is the count of A plus the count of B; an empty upload counts 0 |
| FilesRoute.CountNumericRows | app/api/files/route.ts:65-80 | the loop's count is the number of numeric rows, at most the number of rows |
| FilesRoute.BlankRowNotCounted | app/api/files/route.ts:68-77 | a row of nulls, booleans and blank strings is not counted |
| FilesRoute.FormatOf | app/api/files/route.ts:19-43 | CSV exactly when the lower-cased name ends in ".csv"; Excel exactly when it does not but ends in ".xlsx" or ".xls" |
| FilesRoute.ExtensionIgnoresCase | app/api/files/route.ts:19-33 | any capitalisation of ".csv" selects CSV and of ".xlsx"/".xls" selects Excel, whatever the base name |
| FilesRoute.FormatOfLower | app/api/files/route.ts:19 | names differing only in letter case take the same path |
| FilesRoute.HandleUpload | app/api/files/route.ts:6-63 | a missing `file` field or an empty text in it gives 400 "No file provided" before anything is read; a readable file with an unsupported extension gives 400 with its message; status 400 exactly in those cases; a count exactly when a readable file has a supported extension and its reader parses it, carrying the original name and the numeric-row count of those rows; every other outcome is 500 "Failed to process file" |
| FilesRoute.CountWith | app/api/files/route.ts:23-62 | a count exactly when the reader succeeds, carrying the original name and the number of numeric rows; otherwise 500 "Failed to process file" |
| TableFilter.Get | features/table/components/Filter.tsx:30 | absent exactly when no pair carries the name; otherwise the value of the first pair carrying it |
| TableFilter.Delete | features/table/components/Filter.tsx:36 | no pair with the name remains; every other name keeps its pairs and its first value |
| TableFilter.Set | features/table/components/Filter.tsx:38-42 | afterwards exactly one pair carries the name, with the value; every other name keeps its pairs and its first value |
| TableFilter.HandleChange | features/table/components/Filter.tsx:32-47 | "all" removes the status; any other value sets it to exactly that value; the page is "1" once; every other parameter reads as before |
| TableFilter.OtherParamsUnchanged | features/table/components/Filter.tsx:33-42 | with the status and the page removed, the parameters after a change equal those before, order included |
| TableFilter.HandleChangeIdempotent | features/table/components/Filter.tsx:32-42 | choosing the same value twice gives the parameters of choosing it once |
| TableFilter.DeleteAfterSet | features/table/components/Filter.tsx:36-42 | setting a name and then deleting it is deleting it |
| TableFilter.CurrentStatus | features/table/components/Filter.tsx:30 | "all" when the status is absent or empty; otherwise exactly the stored status |
| TableFilter.CurrentStatusAfterChange | features/table/components/Filter.tsx:30-42 | after a change the select shows the chosen value, an empty choice showing as "all" |
| TableFilter.StatusLabelChars | features/table/components/Filter.tsx:58 | after the first character, only the first "-" changes, into a space; all else is kept |
| TableFilter.StatusLabel | features/table/components/Filter.tsx:58 | the label is as long as the status and starts with its first character upper-cased |
| TableFilter.HyphenLabel | features/table/components/Filter.tsx:58 | head upper-cased, the first hyphen a space, everything after it verbatim |
| TableFilter.PlainLabel | features/table/components/Filter.tsx:58 | a status without a hyphen only has its head upper-cased |
| TableFilter.NoAnswerLabel | features/table/components/Filter.tsx:58 | "no-answer" is labelled "No answer" |
| TableFilter.CompletedLabel | features/table/components/Filter.tsx:58 | "completed" is labelled "Completed" |
| TableFilter.Options | features/table/components/Filter.tsx:13-60 | the first option selects "all" and shows "All statuses"; then one option per status, in order, shown with its label |
| TableFilter.OptionValuesDistinct | features/table/components/Filter.tsx:13-57 | no two options select the same value, so the option keys are unique |
| TableFilter.ChosenOptionShown | features/table/components/Filter.tsx:30-60 | choosing any option makes the select show that option |
| DownloadExcel.ExportCell | components/DownloadExcel.tsx:26-35 | every exported cell is a string or a number, never null or undefined, and truthy unless it is NaN; a non-blank string and a number other than 0 are kept as they are, and the number 0 becomes the text "0" |
| DownloadExcel.ExportCellNotApplicable | components/DownloadExcel.tsx:28-35 | "N/A" comes exactly from a blank string, a value that is neither string nor number, or an input already reading "N/A" |
| DownloadExcel.ExportCellIdempotent | components/DownloadExcel.tsx:28-35 | exporting an exported cell changes nothing |
| DownloadExcel.ExportCellKeepsNumberText | components/DownloadExcel.tsx:30-31 | a number reads the same text before and after export, 0 as "0" |
| DownloadExcel.MapRow | components/DownloadExcel.tsx:24-37 | the mapped row never repeats a key |
| DownloadExcel.MapRowKeys | components/DownloadExcel.tsx:24-36 | the mapped row's keys are exactly the header labels |
| DownloadExcel.MapRowValues | components/DownloadExcel.tsx:25-36 | each label holds the exported value read through the last header carrying it |
| DownloadExcel.MapRowKeysInOrder | components/DownloadExcel.tsx:24-36 | with distinct labels the keys are the labels in header order |
| DownloadExcel.ExportData | components/DownloadExcel.tsx:23-38 | one mapped row per table row, in the same order |
| DownloadExcel.HandleDownload | components/DownloadExcel.tsx:21-41 | no rows, no workbook; otherwise the file is the given name (default "Export") plus ".xlsx", the rows are the mapped rows and the columns are the labels |
| ExportToExcel.CellLength | lib/exportToExcel.ts:17 | a falsy cell asks for width 0; a truthy one asks for the UTF-16 length of its text, and a non-empty string for its own UTF-16 length, at least its character count |
| ExportToExcel.Widest | lib/exportToExcel.ts:16-19 | the widest entry is at least the column name's length |
| ExportToExcel.WidestCovers | lib/exportToExcel.ts:16-19 | no cell of the column is wider than the widest entry |
| ExportToExcel.WidestAttained | lib/exportToExcel.ts:16-19 | the widest entry is the name's length or some cell's length |
| ExportToExcel.WidestSnoc | lib/exportToExcel.ts:16-19 | one more row widens to that row's cell exactly when it is wider |
| ExportToExcel.WidestMonotone | lib/exportToExcel.ts:16-19 | widening cells never narrows the column |
| ExportToExcel.Clamp | lib/exportToExcel.ts:20 | the width is 10 for lengths up to 10, 50 for lengths from 50 on, and the length itself in between |
| ExportToExcel.ColumnMax | lib/exportToExcel.ts:16-19 | the loop's maximum is the widest entry of the column |
| ExportToExcel.ColumnWidths | lib/exportToExcel.ts:14-21 | one width per key of the first row, in key order, each the clamped widest entry |
| ExportToExcel.ExportSheet | lib/exportToExcel.ts:5-26 | empty data gives no workbook; otherwise one "Sheet1" with the data, columns from the first row, widths in 10..50, file name plus ".xlsx" |
| ExportToExcel.WidthFitsEntries | lib/exportToExcel.ts:16-20 | a column is as wide as its name and each of its cells unless it is at the maximum 50 |
| JsText.Trim | app/api/files/route.ts:74 | the result is the slice of the input that follows its leading white space and leaves only white space after it; it is empty exactly for a blank string, and otherwise neither starts nor ends with white space |
| JsText.PadStart | features/schedule/components/CallSettingsForm.tsx:136 | the input itself when already as wide, otherwise exactly the width long; it ends with the input and is filled in front |
| JsText.PadStartUnits | features/schedule/components/CallSettingsForm.tsx:136 | for text inside the Basic Multilingual Plane, counted in UTF-16 code units, the result is the input when it has the width already and otherwise exactly the width long |
| JsText.Split | lib/normalizeToSeconds.ts:17 | there is at least one part and no part holds the separator |
| JsText.SplitJoin | lib/normalizeToSeconds.ts:17 | joining the parts with the separator gives the string back |
| JsText.SplitOnce | lib/normalizeToSeconds.ts:17 | a string holding ':' once, between a and b, splits into a and b |
| JsText.ParseIntNeedsDigit | features/schedule/components/CallSettingsForm.tsx:132 | `parseInt` gives a number only when the text holds a digit, and a negative number only when it holds a minus sign |
| JsText.ParseIntOfDigits | features/schedule/components/CallSettingsForm.tsx:132 | a numeral of decimal digits reads as its value |
| JsText.ParseIntNatToString | features/schedule/components/CallSettingsForm.tsx:132 | `parseInt` reads `String(n)` back as n |
| JsText.IntToString | features/schedule/components/CallSettingsForm.tsx:136 | a non-negative integer is its numeral, a negative one a '-' followed by the numeral of its magnitude |
| JsText.ParseIntIntToString | features/schedule/components/CallSettingsForm.tsx:132-136 | `parseInt` reads `String(i)` back as i for every integer, negative ones included |
| JsText.NatToString | features/schedule/components/CallSettingsForm.tsx:153 | a numeral without leading zero whose value is n |
| JsText.ReplaceFirst | features/table/components/Filter.tsx:58 | only the first occurrence is replaced |
| JsText.ToLower | app/api/files/route.ts:19 | the same length, each ASCII capital lowered and every other character kept |
| JsText.EndsWithAppend | app/api/files/route.ts:23-33 | a string followed by the suffix ends with it, and a string ending with the suffix is its front part followed by the suffix |
| JsText.Utf16Length | lib/exportToExcel.ts:17 | the UTF-16 length lies between the number of characters and twice it; with Utf16LengthChar and Utf16Append it is one unit per character up to U+FFFF plus two per character above |
| JsText.Utf16LengthChar | lib/exportToExcel.ts:17 | a character above U+FFFF counts two code units, every other character one |
| JsText.Utf16LengthBmp | lib/exportToExcel.ts:17 | text inside the Basic Multilingual Plane has one code unit per character |
| JsText.Utf16Append | lib/exportToExcel.ts:17 | the UTF-16 length of a concatenation is the sum of the lengths |
| JsText.ToLowerAppend | app/api/files/route.ts:19 | lower-casing distributes over concatenation |
| JsValue.Num.Floor | lib/normalizeToSeconds.ts:31-34 | `Math.floor` is NaN exactly for NaN; otherwise a whole number at most the input and more than the input minus 1 |
| JsValue.Keys | lib/exportToExcel.ts:14 | one key per entry, in entry order |
| JsValue.Get | components/DownloadExcel.tsx:26 | a key no entry carries reads `undefined` |
| JsValue.GetFirst | components/DownloadExcel.tsx:26 | a present key reads the value of the first entry carrying it |
| JsDate.LocalSecondOfDay | features/schedule/components/CallSettingsForm.tsx:152-153 | the local clock reading behind `getHours()`/`getMinutes()`: a second of the day in 0..86399 differing from the local time by whole days |
| JsDate.DayStart | lib/normalizeToSeconds.ts:13 | luxon's `startOf("day")`: a local midnight at most the instant and less than a day before it |
| JsValue.Trunc | features/schedule/components/CallSettingsForm.tsx:151 | truncation toward zero: the floor for non-negative reals and the ceiling for negative ones |
| JsValue.Put | components/DownloadExcel.tsx:29-34 | assignment keeps keys unique, keeps an existing key's place or appends a new one, reads back the new value and changes no other key |
| JsValue.GetEntry | components/DownloadExcel.tsx:26 | in an object each entry is what its key reads |

## Left out

- Floating point: numbers are exact reals, so rounding in the cost formula and in `seconds * 1000` is not modelled, and neither are the infinities (`Infinity` counts as numeric in the file route).
- `Number(text)`, `String(number)` and luxon's ISO parser are parameters, not definitions; the formatter is not constrained, so nothing promises that a whole number is written as its digits in a cell or in the title.
- JsText.IntToString: writes every integer in decimal digits, whereas JavaScript's `String` switches to exponent form ("1e+21") from a magnitude of 10^21 on; the hour `parseInt` reads from its selector text could reach that only for a numeral of 22 or more digits, never one the selector offers.
- Time zones: the host zone is one fixed offset with no daylight-saving changes; times are whole seconds (milliseconds are not modelled).
- Letter case: `toLowerCase`/`toUpperCase` are modelled for ASCII letters only.
- JsText.ParseInt: values beyond 2^53 are exact rather than rounded.
- The `toFixed` display rounding of the cost and the duration display of the form.
- FilesRoute.HandleUpload: the form parser, the CSV and Excel readers, the text decoding and the first-sheet choice are abstract; a failed `arrayBuffer()` read is a file without bytes, and a failing reader is a `None`.
- JsText.PadStart: counts the width in characters, not UTF-16 code units; PadStartUnits shows the two agree for text inside the Basic Multilingual Plane, which covers every hour and minute text the picker produces.
- ExportToExcel.ExportSheet: the worksheet's cell layout written by the spreadsheet library and the file write are not modelled; JavaScript's ordering of integer-like object keys before other keys is not modelled either.
- JsValue.Put: a new key is appended after the existing ones; JavaScript lists integer-like keys such as "0" or "42" first, in ascending order, so an object with such a key is listed in a different order than modelled.
- DownloadExcel.MapRowKeysInOrder: the keys follow header order only for labels that are not integer-like; JavaScript would list an integer-like label first.
- The URL serialisation of the query parameters, the router push and the transition; React state, effects and toasts; `logError` and `console` output.
- `calculateTotalCalls`, batch-job listing and window-expiry watching are not part of this model: their code is not among the files modelled.
- Other pages and routes (privacy policy, transcript viewer, print button, auth and sheet routes): static text or thin I/O wrappers.

=== FILE: call_log_info.dfy ===
/** The running-calls summary dialog: the estimated cost of the calls
    started so far at fixed per-minute provider rates, and its title. */
module CallLogInfo {
  import opened JsValue

  /** Per-minute rates, in dollars. */
  const ElevenLabsCostPerMin: real := 0.14
  const TwilioCostPerMin: real := 0.013

  /** `totalCost`: (0.14 + 0.013) dollars for each minute of each call. The
      arithmetic is exact; the display rounding to cents is not modelled. */
  function TotalCost(calls: real, durationSeconds: real): (cost: real)
    ensures calls == 0.0 || durationSeconds == 0.0 ==> cost == 0.0
    ensures calls >= 0.0 && durationSeconds >= 0.0 ==> cost >= 0.0
    ensures cost * 60.0 == 0.153 * calls * durationSeconds
  {
    var callDurationInMin := durationSeconds / 60.0;
    (ElevenLabsCostPerMin + TwilioCostPerMin) * calls * callDurationInMin
  }

  /** The cost grows with the number of calls and with their duration. */
  lemma CostMonotone(c1: real, c2: real, d1: real, d2: real)
    requires 0.0 <= c1 <= c2 && 0.0 <= d1 <= d2
    ensures TotalCost(c1, d1) <= TotalCost(c2, d1) <= TotalCost(c2, d2)
  {
    assert c1 * d1 <= c2 * d1;
    assert c2 * d1 <= c2 * d2;
  }

  /** The cost of two groups of calls of the same duration is the sum of
      their costs, and likewise for two stretches of one call count. */
  lemma CostAdditive(a: real, b: real, d: real, e: real)
    ensures TotalCost(a + b, d) == TotalCost(a, d) + TotalCost(b, d)
    ensures TotalCost(a, d + e) == TotalCost(a, d) + TotalCost(a, e)
  {
  }

  /** 460 calls of five minutes each cost exactly 351.9 dollars. */
  lemma CostExample()
    ensures TotalCost(460.0, 300.0) == 351.9
  {
  }

  /** The verb ending of the dialog title: "s have" for more than one call,
      " has" otherwise (including zero calls). */
  function PluralEnding(calls: real): (ending: string)
    ensures ending == "s have" <==> calls > 1.0
    ensures ending == " has" <==> calls <= 1.0
  {
    if calls > 1.0 then "s have" else " has"
  }

  /** The dialog title, given `String` for the call count. */
  function Title(calls: real, show: NumberFormatter): (title: string)
    ensures calls > 1.0 ==> title == "A total of " + show(calls) + " calls have been started."
    ensures calls <= 1.0 ==> title == "A total of " + show(calls) + " call has been started."
  {
    "A total of " + show(calls) + " call" + PluralEnding(calls) + " been started."
  }
}

=== FILE: call_settings_form.dfy ===
/** The schedule form's call time picker: a wall-clock time shown as
    hour (1-12), minute and AM/PM selectors, turned back into the
    24-hour "HH:MM" string the form dispatches; and the call-gap display. */
module CallSettingsForm {
  import opened Wrappers
  import opened JsText
  import opened JsValue
  import opened JsDate
  import NormalizeToSeconds

  /** The three selector values of the picker. */
  datatype PickerTime = PickerTime(hour: string, minute: string, ampm: string)

  /** A minute or hour as the picker's two-digit option, "00".."59". */
  function TwoDigits(n: nat): string {
    PadStart(NatToString(n), 2, '0')
  }

  /** The 24-hour "HH:MM" text for a reading `h`:`m`. */
  function ClockText(h: nat, m: nat): string {
    TwoDigits(h) + ":" + TwoDigits(m)
  }

  /** The hour selector's options, `String(i + 1)` for i in 0..11. */
  function HourOptions(): (os: seq<string>)
    ensures |os| == 12
  {
    seq(12, i requires 0 <= i < 12 => NatToString(i + 1))
  }

  /** The minute selector's options, `String(i).padStart(2, "0")` for i in
      0..59. */
  function MinuteOptions(): (os: seq<string>)
    ensures |os| == 60
  {
    seq(60, i requires 0 <= i < 60 => TwoDigits(i))
  }

  /** Option `i` of the hour selector reads as the hour i + 1. */
  lemma HourOptionsRead()
    ensures forall i | 0 <= i < 12 :: ParseInt(HourOptions()[i]) == Some(i + 1)
  {
    forall i | 0 <= i < 12
      ensures ParseInt(HourOptions()[i]) == Some(i + 1)
    {
      ParseIntNatToString(i + 1);
    }
  }

  /** Option `i` of the minute selector is the two-digit numeral for i. */
  lemma MinuteOptionsRead()
    ensures forall i | 0 <= i < 60 ::
              |MinuteOptions()[i]| == 2 && IsDigits(MinuteOptions()[i]) && DigitsValue(MinuteOptions()[i]) == i
  {
    forall i | 0 <= i < 60
      ensures |MinuteOptions()[i]| == 2 && IsDigits(MinuteOptions()[i]) && DigitsValue(MinuteOptions()[i]) == i
    {
      TwoDigitsValue(i);
    }
  }

  /** Hour `h` is the selector's option `h - 1`. */
  lemma HourOption(h: int)
    requires 1 <= h <= 12
    ensures HourOptions()[h - 1] == NatToString(h)
  {
  }

  /** Minute `m` is the selector's option `m`. */
  lemma MinuteOption(m: int)
    requires 0 <= m < 60
    ensures MinuteOptions()[m] == TwoDigits(m)
  {
  }

  /** The picker's selectors for a local wall-clock reading `h24`:`m`:
      `h % 12 || 12` for the hour, the zero-padded minute, and "PM" from
      noon on. */
  function PickerReading(h24: nat, m: nat): (p: PickerTime)
    requires h24 < 24 && m < 60
    ensures ParseInt(p.hour).Some? && 1 <= ParseInt(p.hour).value <= 12
    ensures ParseInt(p.hour).value % 12 == h24 % 12
    ensures p.ampm == "PM" <==> h24 >= 12
    ensures p.ampm == "AM" <==> h24 < 12
    ensures |p.minute| == 2 && IsDigits(p.minute) && DigitsValue(p.minute) == m
  {
    var h12 := if h24 % 12 == 0 then 12 else h24 % 12;
    assert h12 % 12 == h24 % 12;
    ParseIntNatToString(h12);
    TwoDigitsValue(m);
    PickerTime(NatToString(h12), TwoDigits(m), if h24 >= 12 then "PM" else "AM")
  }

  /** The picker's hour and minute are always among the selectors'
      options: the hour one of "1".."12", the minute the option for `m`. */
  lemma PickerReadingOptions(h24: nat, m: nat)
    requires h24 < 24 && m < 60
    ensures PickerReading(h24, m).hour in HourOptions()
    ensures PickerReading(h24, m).minute == MinuteOptions()[m]
  {
    var h12 := if h24 % 12 == 0 then 12 else h24 % 12;
    HourOption(h12);
    MinuteOption(m);
  }

  /** The instant a picker starts from: the given epoch seconds when
      truthy, the current time otherwise; `None` is an Invalid Date (a
      time value beyond the Date range). A Date holds whole milliseconds,
      truncated toward zero; the model keeps the second they fall in. */
  function InitialInstant(seconds: Option<Num>, clock: Clock): (t: Option<int>)
    ensures (seconds.None? || !seconds.value.Truthy()) ==> t == Some(clock.now)
    ensures t.None? <==> seconds.Some? && seconds.value.Truthy()
                         && !(-MaxTimeMs <= Trunc(seconds.value.r * 1000.0) <= MaxTimeMs)
    ensures t.Some? && seconds.Some? && seconds.value.Truthy() ==>
              t.value * 1000 <= Trunc(seconds.value.r * 1000.0) < t.value * 1000 + 1000
    ensures seconds.Some? && seconds.value.Finite? && seconds.value.r.Floor as real == seconds.value.r
            && seconds.value.r != 0.0 && -MaxTimeMs <= seconds.value.r.Floor * 1000 <= MaxTimeMs
            ==> t == Some(seconds.value.r.Floor)
  {
    if seconds.Some? && seconds.value.Truthy() then
      var ms := Trunc(seconds.value.r * 1000.0);
      if ms < -MaxTimeMs || MaxTimeMs < ms then None else Some(ms / 1000)
    else Some(clock.now)
  }

  /** The picker's selectors for the local time at epoch second `t`. */
  function PickerAt(t: int, offset: int): (p: PickerTime)
    ensures var hour := LocalSecondOfDay(t, offset) / 3600;
            && ParseInt(p.hour).Some? && 1 <= ParseInt(p.hour).value <= 12
            && ParseInt(p.hour).value % 12 == hour % 12
            && (p.ampm == "PM" <==> hour >= 12)
    ensures |p.minute| == 2 && IsDigits(p.minute)
            && DigitsValue(p.minute) == LocalSecondOfDay(t, offset) % 3600 / 60
    ensures p.hour in HourOptions()
    ensures p.minute == MinuteOptions()[LocalSecondOfDay(t, offset) % 3600 / 60]
  {
    var sod := LocalSecondOfDay(t, offset);
    PickerReadingOptions(sod / 3600, sod % 3600 / 60);
    PickerReading(sod / 3600, sod % 3600 / 60)
  }

  /** `getTimeFromSeconds`: the picker's selectors for the local time of
      the initial instant. An Invalid Date reads as hour "12", minute
      "NaN", "AM". */
  function TimeFromSeconds(seconds: Option<Num>, clock: Clock): (p: PickerTime)
    ensures InitialInstant(seconds, clock).Some? ==>
              var sod := LocalSecondOfDay(InitialInstant(seconds, clock).value, clock.offset);
              && ParseInt(p.hour).Some? && 1 <= ParseInt(p.hour).value <= 12
              && ParseInt(p.hour).value % 12 == sod / 3600 % 12
              && (p.ampm == "PM" <==> sod / 3600 >= 12)
              && |p.minute| == 2 && IsDigits(p.minute) && DigitsValue(p.minute) == sod % 3600 / 60
              && p.hour in HourOptions()
              && p.minute == MinuteOptions()[sod % 3600 / 60]
    ensures seconds.Some? && seconds.value.Truthy()
            && !(-MaxTimeMs <= Trunc(seconds.value.r * 1000.0) <= MaxTimeMs)
            ==> p == PickerTime("12", "NaN", "AM")
  {
    match InitialInstant(seconds, clock)
    case None => PickerTime("12", "NaN", "AM")
    case Some(t) => PickerAt(t, clock.offset)
  }

  /** The 24-hour hour for a parsed 12-hour selector value. */
  function Hour24(h: int, ampm: string): (h24: int)
    ensures 1 <= h <= 12 && ampm == "AM" ==> 0 <= h24 <= 11 && (h24 == h || h24 + 12 == h)
    ensures 1 <= h <= 12 && ampm == "PM" ==> 12 <= h24 <= 23 && (h24 == h + 12 || h24 == h)
    ensures ampm != "AM" && ampm != "PM" ==> h24 == h
  {
    var h' := if ampm == "PM" && h != 12 then h + 12 else h;
    if ampm == "AM" && h' == 12 then 0 else h'
  }

  /** `to24HourFormat`: "HH:MM" from the selector strings. An hour that
      does not parse prints as "NaN". The minute string is only
      left-padded with "0" to two characters. */
  function To24HourFormat(hour: string, minute: string, ampm: string): (r: string)
    ensures var mm := PadStart(minute, 2, '0');
            |r| > |mm| && r[|r| - |mm|..] == mm && r[|r| - |mm| - 1] == ':'
    ensures ParseInt(hour).None? ==> r[..|r| - |PadStart(minute, 2, '0')| - 1] == "NaN"
  {
    var hh := match ParseInt(hour)
      case None => "NaN"
      case Some(h) => IntToString(Hour24(h, ampm));
    PadStart(hh, 2, '0') + ":" + PadStart(minute, 2, '0')
  }

  /** For a selector hour in 1..12 the 24-hour hour is in 0..23 and equals
      `h % 12`, plus 12 in the afternoon: 12 AM is 0, 12 PM is 12, and any
      other PM hour gains 12. */
  lemma Hour24Range(h: int, ampm: string)
    requires 1 <= h <= 12 && (ampm == "AM" || ampm == "PM")
    ensures 0 <= Hour24(h, ampm) <= 23
    ensures Hour24(h, ampm) == h % 12 + (if ampm == "PM" then 12 else 0)
    ensures Hour24(h, ampm) >= 12 <==> ampm == "PM"
  {
  }

  /** `TwoDigits` writes a two-character numeral with the value it was given. */
  lemma TwoDigitsValue(n: nat)
    requires n < 100
    ensures |TwoDigits(n)| == 2 && IsDigits(TwoDigits(n)) && DigitsValue(TwoDigits(n)) == n
  {
    var s := NatToString(n);
    if n < 10 {
      assert TwoDigits(n) == ['0'] + s;
      assert TwoDigits(n)[..1] == ['0'];
    } else {
      assert NatToString(n / 10) == [('0' as int + n / 10) as char];
    }
  }

  /** For a valid 12-hour selector value the output is "HH:MM" with a
      two-digit hour reading the 24-hour hour. */
  lemma To24HourFormatValid(h: int, minute: string, ampm: string)
    requires 1 <= h <= 12 && (ampm == "AM" || ampm == "PM")
    ensures To24HourFormat(NatToString(h), minute, ampm)
            == TwoDigits(Hour24(h, ampm)) + ":" + PadStart(minute, 2, '0')
    ensures var hh := TwoDigits(Hour24(h, ampm));
            |hh| == 2 && IsDigits(hh) && DigitsValue(hh) == h % 12 + (if ampm == "PM" then 12 else 0)
  {
    Hour24Range(h, ampm);
    HourText(h, minute, ampm);
    TwoDigitsValue(Hour24(h, ampm));
  }

  /** The hour half of `To24HourFormat` for a numeral hour. */
  lemma HourText(h: nat, minute: string, ampm: string)
    requires 0 <= Hour24(h, ampm)
    ensures To24HourFormat(NatToString(h), minute, ampm)
            == TwoDigits(Hour24(h, ampm)) + ":" + PadStart(minute, 2, '0')
  {
    ParseIntNatToString(h);
    var h24 := Hour24(h, ampm);
    assert IntToString(h24) == NatToString(h24);
  }

  /** Round trip: the picker's selectors for a 24-hour reading `h`:`m`
      convert back to exactly "HH:MM" for the same `h` and `m`. */
  lemma PickerRoundTrip(h: nat, m: nat)
    requires h < 24 && m < 60
    ensures var p := PickerReading(h, m);
            To24HourFormat(p.hour, p.minute, p.ampm) == ClockText(h, m)
  {
    var h12 := if h % 12 == 0 then 12 else h % 12;
    var ampm := if h >= 12 then "PM" else "AM";
    assert PickerReading(h, m) == PickerTime(NatToString(h12), TwoDigits(m), ampm);
    Hour24OfReading(h);
    HourText(h12, TwoDigits(m), ampm);
    TwoDigitsValue(m);
    assert PadStart(TwoDigits(m), 2, '0') == TwoDigits(m);
  }

  /** Reading a 24-hour hour as 12-hour plus AM/PM and converting back is
      the identity. */
  lemma Hour24OfReading(h: nat)
    requires h < 24
    ensures Hour24(if h % 12 == 0 then 12 else h % 12, if h >= 12 then "PM" else "AM") == h
  {
    if h < 12 {
      assert h % 12 == h;
    } else {
      assert h % 12 == h - 12;
    }
  }

  /** The call-gap label and slider value, `callGap || 5`: an unset, zero
      or NaN gap shows as 5 seconds, any other gap as itself. */
  function GapShown(callGap: Option<Num>): (shown: Num)
    ensures shown.Truthy()
    ensures callGap.Some? && callGap.value.Truthy() ==> shown == callGap.value
    ensures callGap.None? || !callGap.value.Truthy() ==> shown == Finite(5.0)
  {
    if callGap.Some? && callGap.value.Truthy() then callGap.value else Finite(5.0)
  }

  /** The picker's string for an instant, normalised as a "time", lands on
      today's date at the instant's local hour and minute with the seconds
      zeroed: the start/end time shown is the one stored back. */
  lemma PickedTimeNormalizes(t: int, env: NormalizeToSeconds.Env)
    requires NormalizeToSeconds.ReadsNumerals(env.toNumber)
    requires var today := DayStart(env.clock.now, env.clock.offset) + env.clock.offset;
             InDateRange(today) && InDateRange(today + SecondsPerDay)
    ensures var p := PickerAt(t, env.clock.offset);
            var sod := LocalSecondOfDay(t, env.clock.offset);
            var h, m := sod / 3600, sod % 3600 / 60;
            NormalizeToSeconds.Normalize("time", Str(To24HourFormat(p.hour, p.minute, p.ampm)), env)
              == Finite((DayStart(env.clock.now, env.clock.offset) + 3600 * h + 60 * m) as real)
  {
    SecondNormalizes(LocalSecondOfDay(t, env.clock.offset), env);
  }

  /** The picker's selectors for `h`:`m`, normalised as a "time", land on
      today at `h`:`m`. */
  predicate LandsToday(h: nat, m: nat, env: NormalizeToSeconds.Env)
    requires h < 24 && m < 60
  {
    var p := PickerReading(h, m);
    NormalizeToSeconds.Normalize("time", Str(To24HourFormat(p.hour, p.minute, p.ampm)), env)
      == Finite((DayStart(env.clock.now, env.clock.offset) + 3600 * h + 60 * m) as real)
  }

  /** The picker's selectors for second `sod` of the local day normalise
      to today at that second's hour and minute. */
  lemma SecondNormalizes(sod: int, env: NormalizeToSeconds.Env)
    requires 0 <= sod < SecondsPerDay
    requires NormalizeToSeconds.ReadsNumerals(env.toNumber)
    requires var today := DayStart(env.clock.now, env.clock.offset) + env.clock.offset;
             InDateRange(today) && InDateRange(today + SecondsPerDay)
    ensures LandsToday(sod / 3600, sod % 3600 / 60, env)
  {
    MinuteOfDay(sod);
    ReadingNormalizes(sod / 3600, sod % 3600 / 60, env);
  }

  /** The picker's selectors for `h`:`m` normalise to today at `h`:`m`. */
  lemma ReadingNormalizes(h: nat, m: nat, env: NormalizeToSeconds.Env)
    requires h < 24 && m < 60
    requires NormalizeToSeconds.ReadsNumerals(env.toNumber)
    requires var today := DayStart(env.clock.now, env.clock.offset) + env.clock.offset;
             InDateRange(today) && InDateRange(today + SecondsPerDay)
    ensures LandsToday(h, m, env)
  {
    PickerRoundTrip(h, m);
    NormalizePickerText(h, m, env);
  }

  /** The "HH:MM" text the picker emits normalises to today at HH:MM. */
  lemma NormalizePickerText(h: nat, m: nat, env: NormalizeToSeconds.Env)
    requires h < 24 && m < 60
    requires NormalizeToSeconds.ReadsNumerals(env.toNumber)
    requires var today := DayStart(env.clock.now, env.clock.offset) + env.clock.offset;
             InDateRange(today) && InDateRange(today + SecondsPerDay)
    ensures NormalizeToSeconds.Normalize("time", Str(ClockText(h, m)), env)
            == Finite((DayStart(env.clock.now, env.clock.offset) + 3600 * h + 60 * m) as real)
  {
    TwoDigitsValue(h);
    TwoDigitsValue(m);
    NotInDigits(TwoDigits(h), ':');
    NotInDigits(TwoDigits(m), ':');
    NormalizeToSeconds.TimeIsTodayAt(TwoDigits(h), TwoDigits(m), h, m, env);
  }

  /** A second of the day has an hour below 24 and a minute below 60. */
  lemma MinuteOfDay(sod: nat)
    requires sod < SecondsPerDay
    ensures sod / 3600 < 24 && sod % 3600 / 60 < 60
  {
  }
}



=== FILE: download_excel.dfy ===
/** The table's "Download" button: each data row becomes a record keyed
    by the column labels, with blanks and missing values shown as "N/A",
    and the records go to the spreadsheet export. */
module DownloadExcel {
  import opened JsText
  import opened JsValue
  import opened Wrappers
  import opened Sequences
  import opened ExportToExcel

  /** A table column: the row key it reads and the label it is exported as. */
  datatype Header = Header(key: string, caption: string)

  function Captions(headers: seq<Header>): (ls: seq<string>)
    ensures |ls| == |headers|
    ensures forall i | 0 <= i < |headers| :: ls[i] == headers[i].caption
  {
    seq(|headers|, i requires 0 <= i < |headers| => headers[i].caption)
  }

  /** The exported form of one cell: a non-blank string and a non-zero
      number are kept, the number 0 becomes the text "0", and a blank
      string, null, undefined or any other value becomes "N/A". */
  function ExportCell(v: Value): (c: Value)
    ensures c.Str? || c.Number?
    ensures c.Truthy() || c == Number(NaN)
    ensures c.Str? && c.s != "N/A" && c.s != "0" ==> c == v
    ensures c.Number? ==> c == v
    ensures v.Str? && !IsBlank(v.s) ==> c == v
    ensures v.Number? && v.n != Finite(0.0) ==> c == v
    ensures v == Number(Finite(0.0)) ==> c == Str("0")
  {
    match v
    case Str(s) => if IsBlank(s) then Str("N/A") else v
    case Number(n) => if n == Finite(0.0) then Str("0") else v
    case _ => Str("N/A")
  }

  /** Exporting an exported cell again changes nothing. */
  lemma ExportCellIdempotent(v: Value)
    ensures ExportCell(ExportCell(v)) == ExportCell(v)
  {
    assert !IsBlank("N/A") by { assert !IsWhiteSpace("N/A"[0]); }
    assert !IsBlank("0") by { assert !IsWhiteSpace("0"[0]); }
  }

  /** A number reads the same before and after export, provided the number
      formatter writes 0 as "0". */
  lemma ExportCellKeepsNumberText(v: Value, show: NumberFormatter)
    requires v.Number? && show(0.0) == "0"
    ensures ToText(ExportCell(v), show) == ToText(v, show)
  {
  }

  /** Only a blank string or a value that is neither string nor number is
      exported as "N/A" (a cell that already read "N/A" stays so). */
  lemma ExportCellNotApplicable(v: Value)
    ensures ExportCell(v) == Str("N/A") <==>
              !(v.Str? || v.Number?) || (v.Str? && (IsBlank(v.s) || v.s == "N/A"))
  {
  }

  /** One row mapped through the headers in order; a later header with
      the same label overwrites the value but keeps the key's place. */
  function MapRow(row: Record, headers: seq<Header>): (mapped: Record)
    ensures UniqueKeys(mapped)
    decreases |headers|
  {
    if headers == [] then []
    else
      var init := headers[..|headers| - 1];
      var h := headers[|headers| - 1];
      var prior := MapRow(row, init);
      Put(prior, h.caption, ExportCell(Get(row, h.key)))
  }

  /** The exported keys are exactly the captions. */
  lemma {:induction false} MapRowKeys(row: Record, headers: seq<Header>)
    ensures forall c :: c in Keys(MapRow(row, headers)) <==> c in Captions(headers)
    decreases |headers|
  {
    if headers != [] {
      CaptionsSnoc(headers);
      MapRowKeys(row, headers[..|headers| - 1]);
    }
  }

  /** Each caption holds the exported value read through the last header
      carrying it. */
  lemma {:induction false} MapRowValues(row: Record, headers: seq<Header>, i: nat)
    requires i < |headers| && LastWithCaption(headers, i)
    ensures Get(MapRow(row, headers), headers[i].caption) == ExportCell(Get(row, headers[i].key))
    decreases |headers|
  {
    var init := headers[..|headers| - 1];
    var h := headers[|headers| - 1];
    if i < |init| {
      LastWithCaptionInit(headers, i);
      MapRowValues(row, init, i);
      MapRowKeeps(row, headers, headers[i].caption);
    } else {
      MapRowLast(row, headers);
    }
  }

  lemma LastWithCaptionInit(headers: seq<Header>, i: nat)
    requires i < |headers| - 1 && LastWithCaption(headers, i)
    ensures headers[..|headers| - 1][i] == headers[i]
    ensures LastWithCaption(headers[..|headers| - 1], i)
  {
  }

  /** The last header's caption holds the value it reads. */
  lemma MapRowLast(row: Record, headers: seq<Header>)
    requires headers != []
    ensures Get(MapRow(row, headers), headers[|headers| - 1].caption)
            == ExportCell(Get(row, headers[|headers| - 1].key))
  {
  }

  /** The last header leaves the other captions as the earlier ones set them. */
  lemma MapRowKeeps(row: Record, headers: seq<Header>, c: string)
    requires headers != [] && c != headers[|headers| - 1].caption
    ensures Get(MapRow(row, headers), c) == Get(MapRow(row, headers[..|headers| - 1]), c)
  {
  }

  lemma CaptionsSnoc(headers: seq<Header>)
    requires headers != []
    ensures Captions(headers) == Captions(headers[..|headers| - 1]) + [headers[|headers| - 1].caption]
  {
  }

  /** Header `i` is the last one carrying its label. */
  predicate LastWithCaption(headers: seq<Header>, i: nat)
    requires i < |headers|
  {
    forall j | i < j < |headers| :: headers[j].caption != headers[i].caption
  }

  /** With distinct labels the exported keys are exactly the labels, in
      header order. */
  lemma {:induction false} MapRowKeysInOrder(row: Record, headers: seq<Header>)
    requires Distinct(Captions(headers))
    ensures Keys(MapRow(row, headers)) == Captions(headers)
    decreases |headers|
  {
    if headers != [] {
      var init := headers[..|headers| - 1];
      assert Captions(headers) == Captions(init) + [headers[|headers| - 1].caption];
      assert Distinct(Captions(init));
      MapRowKeysInOrder(row, init);
    }
  }

  /** The records handed to the export: one per table row, in order. */
  function ExportData(data: seq<Record>, headers: seq<Header>): (out: seq<Record>)
    ensures |out| == |data|
    ensures forall i | 0 <= i < |data| :: out[i] == MapRow(data[i], headers)
  {
    seq(|data|, i requires 0 <= i < |data| => MapRow(data[i], headers))
  }

  /** `handleDownload`: the mapped rows go to the spreadsheet export under
      the given file name, "Export" by default. */
  method HandleDownload(data: seq<Record>, headers: seq<Header>, fileName: Option<string>, show: NumberFormatter)
    returns (e: Export)
    ensures e.NoData? <==> data == []
    ensures e.Workbook? ==> e.file == fileName.GetOr("Export") + ".xlsx" && e.rows == ExportData(data, headers)
    ensures e.Workbook? ==> forall c :: c in e.columns <==> c in Captions(headers)
    ensures e.Workbook? && Distinct(Captions(headers)) ==> e.columns == Captions(headers)
  {
    var rows := ExportData(data, headers);
    e := ExportSheet(rows, fileName.GetOr("Export"), show);
    if e.Workbook? {
      MapRowKeys(data[0], headers);
      if Distinct(Captions(headers)) {
        MapRowKeysInOrder(data[0], headers);
      }
    }
  }
}

=== FILE: export_to_excel.dfy ===
/** The spreadsheet export: one sheet named "Sheet1" holding the records,
    with every column as wide as its widest entry, kept between 10 and
    50 characters. */
module ExportToExcel {
  import opened JsText
  import opened JsValue

  const MinWidth: nat := 10
  const MaxWidth: nat := 50
  const SheetName := "Sheet1"

  /** What the export produces: nothing for an empty list, otherwise a
      workbook with one sheet and the file name it is written under. */
  datatype Export =
    | NoData
    | Workbook(sheet: string, rows: seq<Record>, columns: seq<string>, widths: seq<nat>, file: string)

  /** The width a cell asks for: the length of its text when it is
      truthy, 0 otherwise. */
  function CellLength(v: Value, show: NumberFormatter): (n: nat)
    ensures !v.Truthy() ==> n == 0
    ensures v.Truthy() ==> n == Utf16Length(ToText(v, show))
    ensures v.Str? && v.s != [] ==> n == Utf16Length(v.s) && |v.s| <= n
  {
    if v.Truthy() then Utf16Length(ToText(v, show)) else 0
  }

  /** The widest entry of column `col`: its name or any of its cells. */
  function Widest(data: seq<Record>, col: string, show: NumberFormatter): (m: nat)
    ensures m >= Utf16Length(col)
  {
    if data == [] then Utf16Length(col)
    else
      var first := CellLength(Get(data[0], col), show);
      var rest := Widest(data[1..], col, show);
      if first > rest then first else rest
  }

  /** No cell of the column is wider than its widest entry. */
  lemma {:induction false} WidestCovers(data: seq<Record>, col: string, show: NumberFormatter)
    ensures forall i | 0 <= i < |data| :: CellLength(Get(data[i], col), show) <= Widest(data, col, show)
  {
    if data != [] {
      WidestCovers(data[1..], col, show);
      assert forall i | 1 <= i < |data| :: data[i] == data[1..][i - 1];
    }
  }

  /** Taking one more row into account widens to that row's cell if it is
      wider. */
  lemma {:induction false} WidestSnoc(data: seq<Record>, row: Record, col: string, show: NumberFormatter)
    ensures Widest(data + [row], col, show)
            == var n := CellLength(Get(row, col), show);
               var m := Widest(data, col, show);
               if n > m then n else m
  {
    if data != [] {
      assert (data + [row])[1..] == data[1..] + [row];
      WidestSnoc(data[1..], row, col, show);
    } else {
      assert (data + [row])[1..] == [];
    }
  }

  /** The widest entry is one of the entries: the name or some cell. */
  lemma {:induction false} WidestAttained(data: seq<Record>, col: string, show: NumberFormatter)
    ensures Widest(data, col, show) == Utf16Length(col)
            || exists i | 0 <= i < |data| :: Widest(data, col, show) == CellLength(Get(data[i], col), show)
  {
    if data != [] {
      WidestAttained(data[1..], col, show);
      assert forall i | 0 <= i < |data| - 1 :: data[1..][i] == data[i + 1];
    }
  }

  /** The width bounds applied to an entry's length. */
  function Clamp(n: nat): (w: nat)
    ensures MinWidth <= w <= MaxWidth
    ensures MinWidth <= n <= MaxWidth ==> w == n
    ensures n <= MinWidth ==> w == MinWidth
    ensures n >= MaxWidth ==> w == MaxWidth
  {
    if n < MinWidth then MinWidth else if n > MaxWidth then MaxWidth else n
  }

  /** The width of each column of the first record's keys. */
  method ColumnWidths(data: seq<Record>, show: NumberFormatter) returns (widths: seq<nat>)
    requires data != []
    ensures |widths| == |Keys(data[0])|
    ensures forall c | 0 <= c < |widths| :: widths[c] == Clamp(Widest(data, Keys(data[0])[c], show))
  {
    var columns := Keys(data[0]);
    widths := [];
    var c := 0;
    while c < |columns|
      invariant 0 <= c <= |columns|
      invariant |widths| == c
      invariant forall k | 0 <= k < c :: widths[k] == Clamp(Widest(data, columns[k], show))
    {
      var m := ColumnMax(data, columns[c], show);
      widths := widths + [Clamp(m)];
      c := c + 1;
    }
  }

  /** `Math.max` over a column's cell lengths and its name's length. */
  method ColumnMax(data: seq<Record>, col: string, show: NumberFormatter) returns (m: nat)
    ensures m == Widest(data, col, show)
  {
    m := Utf16Length(col);
    var r := 0;
    while r < |data|
      invariant 0 <= r <= |data|
      invariant m == Widest(data[..r], col, show)
    {
      var n := CellLength(Get(data[r], col), show);
      assert data[..r + 1] == data[..r] + [data[r]];
      WidestSnoc(data[..r], data[r], col, show);
      if n > m {
        m := n;
      }
      r := r + 1;
    }
    assert data[..r] == data;
  }

  /** `exportToExcel(data, fileName)`. */
  method ExportSheet(data: seq<Record>, fileName: string, show: NumberFormatter) returns (e: Export)
    ensures e.NoData? <==> data == []
    ensures e.Workbook? ==> e.sheet == SheetName && e.rows == data && e.file == fileName + ".xlsx"
    ensures e.Workbook? ==> e.columns == Keys(data[0]) && |e.widths| == |e.columns|
    ensures e.Workbook? ==> forall c | 0 <= c < |e.widths| ::
              e.widths[c] == Clamp(Widest(data, e.columns[c], show))
    ensures e.Workbook? ==> forall c | 0 <= c < |e.widths| :: MinWidth <= e.widths[c] <= MaxWidth
  {
    if data == [] {
      return NoData;
    }
    var widths := ColumnWidths(data, show);
    e := Workbook(SheetName, data, Keys(data[0]), widths, fileName + ".xlsx");
  }

  /** A column is never narrower than its name or any of its cells, unless
      it is already at the widest allowed. */
  lemma WidthFitsEntries(data: seq<Record>, col: string, show: NumberFormatter, i: nat)
    requires i < |data|
    ensures Clamp(Widest(data, col, show)) >= Utf16Length(col) || Clamp(Widest(data, col, show)) == MaxWidth
    ensures Clamp(Widest(data, col, show)) >= CellLength(Get(data[i], col), show)
            || Clamp(Widest(data, col, show)) == MaxWidth
  {
    WidestCovers(data, col, show);
  }

  /** Widening one cell of a column never narrows it. */
  lemma {:induction false} WidestMonotone(data: seq<Record>, more: seq<Record>, col: string, show: NumberFormatter)
    requires |data| == |more|
    requires forall i | 0 <= i < |data| ::
               CellLength(Get(data[i], col), show) <= CellLength(Get(more[i], col), show)
    ensures Widest(data, col, show) <= Widest(more, col, show)
  {
    if data != [] {
      WidestMonotone(data[1..], more[1..], col, show);
    }
  }
}

=== FILE: files_route.dfy ===
/** The file-count endpoint (`POST /api/files`): takes an uploaded CSV or
    Excel file and answers how many of its rows hold at least one number. */
module FilesRoute {
  import opened Wrappers
  import opened JsText
  import opened JsValue

  /** One parsed row: column header to cell value. Only the set of values
      matters to the count. */
  type Row = map<string, Value>

  /** A cell that counts as numeric: a number other than NaN, or a string
      whose trimmed text is non-empty and converts to a number other than
      NaN. Booleans, null and undefined never count. */
  function IsNumericValue(v: Value, toNumber: NumberParser): (numeric: bool)
    ensures numeric ==> v.Number? || v.Str?
    ensures v.Number? ==> (numeric <==> !v.n.NaN?)
    ensures v.Str? ==> (numeric <==> !IsBlank(v.s) && toNumber(Trim(v.s)).Finite?)
  {
    match v
    case Number(n) => n.Finite?
    case Str(s) => var t := Trim(s); t != [] && toNumber(t).Finite?
    case _ => false
  }

  /** `Object.values(row).some(...)`. */
  predicate IsNumericRow(row: Row, toNumber: NumberParser): (b: bool)
    ensures b <==> exists v | v in row.Values :: IsNumericValue(v, toNumber)
  {
    exists k | k in row :: IsNumericValue(row[k], toNumber)
  }

  /** `data.filter(...)`: the numeric rows, in their original order. */
  function NumericRows(rows: seq<Row>, toNumber: NumberParser): (kept: seq<Row>)
    ensures |kept| <= |rows|
    ensures forall i | 0 <= i < |kept| :: IsNumericRow(kept[i], toNumber)
  {
    if rows == [] then []
    else
      var rest := NumericRows(rows[1..], toNumber);
      if IsNumericRow(rows[0], toNumber) then [rows[0]] + rest else rest
  }

  /** The kept rows are exactly the numeric rows of the upload. */
  lemma {:induction false} NumericRowsMembers(rows: seq<Row>, toNumber: NumberParser)
    ensures forall r | r in NumericRows(rows, toNumber) :: r in rows && IsNumericRow(r, toNumber)
    ensures forall r | r in rows && IsNumericRow(r, toNumber) :: r in NumericRows(rows, toNumber)
  {
    if rows != [] {
      NumericRowsMembers(rows[1..], toNumber);
      assert forall r | r in rows :: r == rows[0] || r in rows[1..];
    }
  }

  /** A single row is kept exactly when it is numeric. */
  lemma NumericRowsOne(row: Row, toNumber: NumberParser)
    ensures NumericRows([row], toNumber) == if IsNumericRow(row, toNumber) then [row] else []
  {
    assert [row][1..] == [];
  }

  /** Filtering a concatenation filters each part. */
  lemma {:induction false} NumericRowsAppend(a: seq<Row>, b: seq<Row>, toNumber: NumberParser)
    ensures NumericRows(a + b, toNumber) == NumericRows(a, toNumber) + NumericRows(b, toNumber)
  {
    if a == [] {
      assert a + b == b;
    } else {
      assert (a + b)[0] == a[0];
      assert (a + b)[1..] == a[1..] + b;
      NumericRowsAppend(a[1..], b, toNumber);
    }
  }

  /** The count is additive over concatenation, and an empty upload counts 0. */
  lemma NumericCountAdditive(a: seq<Row>, b: seq<Row>, toNumber: NumberParser)
    ensures |NumericRows(a + b, toNumber)| == |NumericRows(a, toNumber)| + |NumericRows(b, toNumber)|
    ensures |NumericRows([], toNumber)| == 0
  {
    NumericRowsAppend(a, b, toNumber);
  }

  /** `countNumericRows`: the length of the filtered rows. */
  method CountNumericRows(rows: seq<Row>, toNumber: NumberParser) returns (count: nat)
    ensures count == |NumericRows(rows, toNumber)|
    ensures count <= |rows|
  {
    count := 0;
    var i := 0;
    while i < |rows|
      invariant 0 <= i <= |rows|
      invariant count == |NumericRows(rows[..i], toNumber)|
    {
      NumericRowsAppend(rows[..i], [rows[i]], toNumber);
      NumericRowsOne(rows[i], toNumber);
      assert rows[..i + 1] == rows[..i] + [rows[i]];
      if IsNumericRow(rows[i], toNumber) {
        count := count + 1;
      }
      i := i + 1;
    }
    assert rows[..i] == rows;
  }

  /** A row whose values are all null, undefined, booleans or blank strings
      is not counted. */
  lemma BlankRowNotCounted(row: Row, toNumber: NumberParser)
    requires forall k | k in row :: !row[k].Number? && (row[k].Str? ==> IsBlank(row[k].s))
    ensures !IsNumericRow(row, toNumber)
    ensures NumericRows([row], toNumber) == []
  {
  }

  // ---------------------------------------------------------------- the route

  /** An uploaded file: its name, and its bytes as `arrayBuffer()`
      delivers them, `None` when reading them fails. */
  datatype File = File(name: string, bytes: Option<seq<bv8>>)

  /** A form field: an uploaded file, or plain text. */
  datatype Field = FileField(file: File) | TextField(text: string)

  /** The request: form data that could not be read, or the `file` field
      of the form, absent or present. */
  datatype Request = Unreadable | Form(field: Option<Field>)

  /** The JSON answers of the route. */
  datatype Response =
    | Counted(filename: string, count: nat)
    | BadRequest(error: string)
    | ServerError(error: string)
  {
    function Status(): int {
      match this
      case Counted(_, _) => 200
      case BadRequest(_) => 400
      case ServerError(_) => 500
    }
  }

  /** Which parser a file name selects. */
  datatype Format = Csv | Excel | Unsupported

  /** The extension check on the lower-cased file name. */
  function FormatOf(name: string): (f: Format)
    ensures f == Csv <==> EndsWith(ToLower(name), ".csv")
    ensures f == Excel <==> !EndsWith(ToLower(name), ".csv")
                            && (EndsWith(ToLower(name), ".xlsx") || EndsWith(ToLower(name), ".xls"))
  {
    var filename := ToLower(name);
    if EndsWith(filename, ".csv") then Csv
    else if EndsWith(filename, ".xlsx") || EndsWith(filename, ".xls") then Excel
    else Unsupported
  }

  /** A spreadsheet library call from bytes to rows; `None` when it throws.
      It stands for Papa.parse with headers and dynamic typing, or for
      XLSX.read plus `sheet_to_json` of the first sheet. */
  type SheetReader = seq<bv8> -> Option<seq<Row>>

  const NoFileError := "No file provided"
  const UnsupportedError := "Unsupported file format. Only CSV, XLS, and XLSX are supported."
  const FailedError := "Failed to process file"

  /** The `file` field is missing or falsy: absent, or the empty text. */
  predicate NoFile(request: Request) {
    request.Form? && (request.field.None? || request.field.value == TextField(""))
  }

  /** The uploaded file whose bytes could be read, if the request has one. */
  function Upload(request: Request): Option<File> {
    if request.Form? && request.field.Some? && request.field.value.FileField?
       && request.field.value.file.bytes.Some?
    then Some(request.field.value.file)
    else None
  }

  /** The rows the reader chosen by the file's extension produces. */
  function ParsedRows(file: File, readCsv: SheetReader, readExcel: SheetReader): Option<seq<Row>>
    requires file.bytes.Some?
  {
    if FormatOf(file.name) == Csv then readCsv(file.bytes.value) else readExcel(file.bytes.value)
  }

  /** The route handler. A missing file is rejected before anything is
      read; a file's bytes are read before its extension picks the parser
      or rejects the upload; any exception becomes a 500. A success
      carries the original file name and the numeric-row count of the
      parsed rows. */
  function HandleUpload(request: Request, readCsv: SheetReader, readExcel: SheetReader,
                        toNumber: NumberParser): (r: Response)
    ensures NoFile(request) ==> r == BadRequest(NoFileError)
    ensures r == BadRequest(UnsupportedError) <==>
            Upload(request).Some? && FormatOf(Upload(request).value.name) == Unsupported
    ensures r.Status() == 400 <==>
            NoFile(request) || (Upload(request).Some? && FormatOf(Upload(request).value.name) == Unsupported)
    ensures r.Counted? <==>
            Upload(request).Some? && FormatOf(Upload(request).value.name) != Unsupported
            && ParsedRows(Upload(request).value, readCsv, readExcel).Some?
    ensures r.Counted? ==>
              var rows := ParsedRows(Upload(request).value, readCsv, readExcel).value;
              r.filename == Upload(request).value.name && r.count == |NumericRows(rows, toNumber)| <= |rows|
    ensures r.ServerError? ==> r == ServerError(FailedError)
  {
    match request
    case Unreadable => ServerError(FailedError)
    case Form(None) => BadRequest(NoFileError)
    case Form(Some(TextField(text))) =>
      // Empty text is falsy; other text has no `arrayBuffer` and throws.
      if text == "" then BadRequest(NoFileError) else ServerError(FailedError)
    case Form(Some(FileField(file))) =>
      match file.bytes
      case None => ServerError(FailedError)
      case Some(bytes) =>
        match FormatOf(file.name)
        case Unsupported => BadRequest(UnsupportedError)
        case Csv => CountWith(file.name, bytes, readCsv, toNumber)
        case Excel => CountWith(file.name, bytes, readExcel, toNumber)
  }

  /** Parse with the chosen reader and count, or fail with a 500. */
  function CountWith(name: string, bytes: seq<bv8>, reader: SheetReader, toNumber: NumberParser): (r: Response)
    ensures r.Counted? || r == ServerError(FailedError)
    ensures r.Counted? <==> reader(bytes).Some?
    ensures r.Counted? ==> r.filename == name
    ensures r.Counted? ==> r.count == |NumericRows(reader(bytes).value, toNumber)|
  {
    match reader(bytes)
    case None => ServerError(FailedError)
    case Some(rows) => Counted(name, |NumericRows(rows, toNumber)|)
  }

  /** The extension check ignores case: a name ending in any capitalisation
      of ".csv" is CSV, of ".xlsx" or ".xls" is Excel. */
  lemma ExtensionIgnoresCase(base: string, ext: string)
    requires ToLower(ext) == ".csv" || ToLower(ext) == ".xlsx" || ToLower(ext) == ".xls"
    ensures FormatOf(base + ext) == if ToLower(ext) == ".csv" then Csv else Excel
  {
    ToLowerAppend(base, ext);
    var lower := ToLower(base + ext);
    assert lower[|lower| - |ext|..] == ToLower(ext);
    if ToLower(ext) != ".csv" {
      assert lower[|lower| - 1] != 'v';
    }
  }

  /** Names that differ only in letter case take the same path. */
  lemma FormatOfLower(name: string)
    ensures FormatOf(ToLower(name)) == FormatOf(name)
  {
    assert ToLower(ToLower(name)) == ToLower(name);
  }
}

=== FILE: js_date.dfy ===
/** The clock and time zone behind JavaScript's `Date` and luxon's
    `DateTime`, reduced to what the modelled code reads: epoch seconds and
    one fixed offset from UTC. */
module JsDate {

  const SecondsPerDay := 86400

  /** The largest magnitude of a Date time value, in milliseconds. */
  const MaxTimeMs := 8_640_000_000_000_000

  /** The host clock: the current instant in whole epoch seconds, and the
      host time zone as a fixed offset in seconds east of UTC (no
      daylight-saving changes). */
  datatype Clock = Clock(now: int, offset: int)

  /** Seconds since local midnight at epoch second `t`. */
  function LocalSecondOfDay(t: int, offset: int): (s: int)
    ensures 0 <= s < SecondsPerDay
    ensures (t + offset - s) % SecondsPerDay == 0
  {
    (t + offset) % SecondsPerDay
  }

  /** The epoch second of the local midnight starting the day of `t`. */
  function DayStart(t: int, offset: int): (d: int)
    ensures d <= t < d + SecondsPerDay
    ensures LocalSecondOfDay(d, offset) == 0
  {
    t - LocalSecondOfDay(t, offset)
  }

  /** A local wall-clock time, in epoch-style seconds, that a Date can hold. */
  predicate InDateRange(localSeconds: int) {
    -MaxTimeMs <= localSeconds * 1000 <= MaxTimeMs
  }
}

=== FILE: js_text.dfy ===
/** The few ECMAScript string operations the modelled code relies on:
    `trim`, `padStart`, `split`, `endsWith`, `toLowerCase`/`toUpperCase`
    (ASCII letters only), `replace` of a one-character pattern, `String(n)`
    for integers, `parseInt(s, 10)` and the UTF-16 `length`. */
module JsText {
  import opened Wrappers
  import opened Sequences

  // ---------------------------------------------------------------- white space

  /** The WhiteSpace and LineTerminator code points of ECMAScript, which
      `trim` and `parseInt` skip. */
  predicate IsWhiteSpace(c: char) {
    || c == ' ' || c == '\t' || c == '\n' || c == '\r'
    || c == '\U{000B}' || c == '\U{000C}' || c == '\U{00A0}' || c == '\U{1680}'
    || ('\U{2000}' <= c <= '\U{200A}')
    || c == '\U{2028}' || c == '\U{2029}' || c == '\U{202F}' || c == '\U{205F}'
    || c == '\U{3000}' || c == '\U{FEFF}'
  }

  /** Every character of `s` is white space (vacuously true of ""). */
  predicate IsBlank(s: string) {
    forall i | 0 <= i < |s| :: IsWhiteSpace(s[i])
  }

  /** How many white-space characters `s` starts with. */
  function LeadingWhite(s: string): (k: nat)
    ensures k <= |s|
    ensures forall i | 0 <= i < k :: IsWhiteSpace(s[i])
    ensures k == |s| || !IsWhiteSpace(s[k])
  {
    if s != [] && IsWhiteSpace(s[0]) then
      var k := LeadingWhite(s[1..]);
      assert forall i | 1 <= i < k + 1 :: s[i] == s[1..][i - 1];
      k + 1
    else 0
  }

  /** How many white-space characters `s` ends with. */
  function TrailingWhite(s: string): (k: nat)
    ensures k <= |s|
    ensures forall i | |s| - k <= i < |s| :: IsWhiteSpace(s[i])
    ensures k == |s| || !IsWhiteSpace(s[|s| - k - 1])
  {
    if s != [] && IsWhiteSpace(s[|s| - 1]) then
      var k := TrailingWhite(s[..|s| - 1]);
      assert forall i | |s| - 1 - k <= i < |s| - 1 :: s[i] == s[..|s| - 1][i];
      k + 1
    else 0
  }

  /** `s.trimStart()`: the suffix left after dropping leading white space. */
  function TrimStart(s: string): (r: string)
    ensures |r| <= |s| && r == s[|s| - |r|..]
    ensures IsBlank(s[..|s| - |r|])
    ensures r == [] || !IsWhiteSpace(r[0])
  {
    s[LeadingWhite(s)..]
  }

  /** `s.trimEnd()`: the prefix left after dropping trailing white space. */
  function TrimEnd(s: string): (r: string)
    ensures |r| <= |s| && r == s[..|r|]
    ensures IsBlank(s[|r|..])
    ensures r == [] || !IsWhiteSpace(r[|r| - 1])
  {
    s[..|s| - TrailingWhite(s)]
  }

  /** `s.trim()`: the slice of `s` left between its leading and its
      trailing white space, starting after the leading white space; empty exactly when `s` is blank, and otherwise
      neither starting nor ending with white space. */
  function Trim(s: string): (r: string)
    ensures var i := LeadingWhite(s);
            i + |r| <= |s| && r == s[i..i + |r|] && IsBlank(s[..i]) && IsBlank(s[i + |r|..])
    ensures r == [] <==> IsBlank(s)
    ensures r != [] ==> !IsWhiteSpace(r[0]) && !IsWhiteSpace(r[|r| - 1])
  {
    var t := TrimStart(s);
    var r := TrimEnd(t);
    TrimParts(s, t, r);
    r
  }

  /** The two halves of `Trim` cut white space from either end of `s`,
      leave nothing exactly when `s` is blank, and otherwise keep a first
      and a last character that are not white space. */
  lemma {:induction false} TrimParts(s: string, t: string, r: string)
    requires t == TrimStart(s) && r == TrimEnd(t)
    ensures var i := LeadingWhite(s);
            i + |r| <= |s| && r == s[i..i + |r|] && IsBlank(s[..i]) && IsBlank(s[i + |r|..])
    ensures r == [] <==> IsBlank(s)
    ensures r != [] ==> !IsWhiteSpace(r[0]) && !IsWhiteSpace(r[|r| - 1])
  {
    TrimBlank(s, t, r);
    TrimSlice(s, t, r);
  }

  /** `r` is the slice of `s` between its leading and trailing white space. */
  lemma {:induction false} TrimSlice(s: string, t: string, r: string)
    requires t == TrimStart(s) && r == TrimEnd(t)
    ensures var i := LeadingWhite(s);
            i + |r| <= |s| && r == s[i..i + |r|] && IsBlank(s[..i]) && IsBlank(s[i + |r|..])
  {
    var i := |s| - |t|;
    assert r == s[i..i + |r|];
    assert s[i + |r|..] == t[|r|..];
    assert IsBlank(s[..i]) && IsBlank(s[i + |r|..]);
  }

  /** The two halves of `Trim` leave nothing exactly when `s` is blank. */
  lemma {:induction false} TrimBlank(s: string, t: string, r: string)
    requires t == TrimStart(s) && r == TrimEnd(t)
    ensures r == [] <==> IsBlank(s)
  {
    if r == [] {
      assert IsBlank(t[|r|..]);
      assert s == s[..|s| - |t|] + t;
    }
  }

  // ---------------------------------------------------------------- padding

  /** `s.padStart(width, fill)` with a one-character fill string, the
      width counted in characters. ECMAScript counts UTF-16 code units;
      `PadStartUnits` shows the two agree inside the Basic Multilingual
      Plane. */
  function PadStart(s: string, width: nat, fill: char): (r: string)
    ensures |r| == if |s| >= width then |s| else width
    ensures r[|r| - |s|..] == s
    ensures forall i | 0 <= i < |r| - |s| :: r[i] == fill
  {
    if |s| >= width then s else Repeat(fill, width - |s|) + s
  }

  /** `k` copies of `c`. */
  function Repeat(c: char, k: nat): (r: string)
    ensures |r| == k
    ensures forall i | 0 <= i < k :: r[i] == c
  {
    if k == 0 then [] else [c] + Repeat(c, k - 1)
  }

  /** For a string and a fill inside the Basic Multilingual Plane the
      result is `s` when it already has `width` code units, and otherwise
      exactly `width` code units long, as ECMAScript's `padStart` gives. */
  lemma {:induction false} PadStartUnits(s: string, width: nat, fill: char)
    requires forall i | 0 <= i < |s| :: s[i] as int <= 0xFFFF
    requires fill as int <= 0xFFFF
    ensures Utf16Length(s) >= width ==> PadStart(s, width, fill) == s
    ensures Utf16Length(PadStart(s, width, fill)) == if Utf16Length(s) >= width then Utf16Length(s) else width
  {
    Utf16LengthBmp(s);
    if |s| < width {
      RepeatUnits(fill, width - |s|);
      Utf16Append(Repeat(fill, width - |s|), s);
    }
  }

  // ---------------------------------------------------------------- split

  /** `s.split(sep)` for a one-character separator: the pieces between the
      separators, at least one (`"".split(":")` is `[""]`). */
  function Split(s: string, sep: char): (parts: seq<string>)
    ensures |parts| >= 1
    ensures forall i | 0 <= i < |parts| :: sep !in parts[i]
  {
    if s == [] then [[]]
    else
      var rest := Split(s[1..], sep);
      if s[0] == sep then [[]] + rest
      else [[s[0]] + rest[0]] + rest[1..]
  }

  /** `parts.join(sep)`: the parts with the separator between each two. */
  function Join(parts: seq<string>, sep: char): string
    requires parts != []
  {
    if |parts| == 1 then parts[0] else parts[0] + [sep] + Join(parts[1..], sep)
  }

  /** Joining the parts of a split with the separator gives the string
      back: `split` loses nothing but the separators. */
  lemma {:induction false} SplitJoin(s: string, sep: char)
    ensures Join(Split(s, sep), sep) == s
  {
    if s != [] {
      var rest := Split(s[1..], sep);
      SplitJoin(s[1..], sep);
      if s[0] == sep {
        assert Split(s, sep) == [[]] + rest;
        assert ([[]] + rest)[1..] == rest;
        assert s == [sep] + s[1..];
      } else {
        var parts := [[s[0]] + rest[0]] + rest[1..];
        assert Split(s, sep) == parts;
        assert parts[1..] == rest[1..];
        if |rest| > 1 {
          assert Join(rest, sep) == rest[0] + [sep] + Join(rest[1..], sep);
        }
        assert s == [s[0]] + s[1..];
      }
    }
  }

  /** Splitting a string that holds the separator exactly once, between
      `a` and `b`, gives back `[a, b]`. */
  lemma {:induction false} SplitOnce(a: string, b: string, sep: char)
    requires sep !in a && sep !in b
    ensures Split(a + [sep] + b, sep) == [a, b]
  {
    if a == [] {
      assert a + [sep] + b == [sep] + b;
      SplitNone(b, sep);
    } else {
      assert (a + [sep] + b)[1..] == a[1..] + [sep] + b;
      SplitOnce(a[1..], b, sep);
      assert [a[0]] + a[1..] == a;
    }
  }

  /** A string without the separator splits into itself. */
  lemma {:induction false} SplitNone(s: string, sep: char)
    requires sep !in s
    ensures Split(s, sep) == [s]
  {
    if s != [] {
      SplitNone(s[1..], sep);
      assert [s[0]] + s[1..] == s;
    }
  }

  // ---------------------------------------------------------------- affixes and case

  /** `s.endsWith(suffix)`. */
  predicate EndsWith(s: string, suffix: string) {
    |suffix| <= |s| && s[|s| - |suffix|..] == suffix
  }

  /** A string followed by `suffix` ends with it, and a string ending
      with `suffix` is its front part followed by `suffix`. */
  lemma EndsWithAppend(s: string, front: string, suffix: string)
    ensures EndsWith(front + suffix, suffix)
    ensures EndsWith(s, suffix) ==> s == s[..|s| - |suffix|] + suffix
  {
    assert (front + suffix)[|front|..] == suffix;
  }

  /** `c.toLowerCase()` for ASCII letters; every other character is kept. */
  function LowerChar(c: char): char {
    if 'A' <= c <= 'Z' then (c as int + 32) as char else c
  }

  /** `c.toUpperCase()` for ASCII letters; every other character is kept. */
  function UpperChar(c: char): char {
    if 'a' <= c <= 'z' then (c as int - 32) as char else c
  }

  /** `s.toLowerCase()`, ASCII letters only. */
  function ToLower(s: string): (r: string)
    ensures |r| == |s|
    ensures forall i | 0 <= i < |s| :: r[i] == LowerChar(s[i])
  {
    seq(|s|, i requires 0 <= i < |s| => LowerChar(s[i]))
  }

  /** Lower-casing distributes over concatenation. */
  lemma ToLowerAppend(a: string, b: string)
    ensures ToLower(a + b) == ToLower(a) + ToLower(b)
  {
  }

  /** `s.replace(from, to)` with one-character string pattern and
      replacement: only the first occurrence is replaced. */
  function ReplaceFirst(s: string, from: char, to: char): (r: string)
    ensures |r| == |s|
    ensures forall j | 0 <= j < |s| ::
              r[j] == if s[j] == from && from !in s[..j] then to else s[j]
  {
    match Find(s, from)
    case None => s
    case Some(i) => s[i := to]
  }

  // ---------------------------------------------------------------- length

  /** `s.length`: the number of UTF-16 code units, two for each character
      outside the Basic Multilingual Plane. */
  function Utf16Length(s: string): (n: nat)
    ensures |s| <= n <= 2 * |s|
  {
    if s == [] then 0
    else (if s[0] as int > 0xFFFF then 2 else 1) + Utf16Length(s[1..])
  }

  /** A character above U+FFFF is a surrogate pair of two code units;
      every other character is one. */
  lemma Utf16LengthChar(c: char)
    ensures Utf16Length([c]) == if c as int > 0xFFFF then 2 else 1
  {
    assert [c][1..] == [];
  }

  /** Within the Basic Multilingual Plane every character is one code
      unit. */
  lemma {:induction false} Utf16LengthBmp(s: string)
    requires forall i | 0 <= i < |s| :: s[i] as int <= 0xFFFF
    ensures Utf16Length(s) == |s|
  {
    if s != [] {
      assert s[0] as int <= 0xFFFF;
      var rest := s[1..];
      assert forall i | 0 <= i < |rest| :: rest[i] == s[i + 1];
      Utf16LengthBmp(rest);
    }
  }

  /** Copies of a character inside the Basic Multilingual Plane take one
      code unit each. */
  lemma {:induction false} RepeatUnits(c: char, k: nat)
    requires c as int <= 0xFFFF
    ensures Utf16Length(Repeat(c, k)) == k
  {
    if k > 0 {
      assert Repeat(c, k)[1..] == Repeat(c, k - 1);
      RepeatUnits(c, k - 1);
    }
  }

  /** The UTF-16 length of a concatenation is the sum of the lengths. */
  lemma {:induction false} Utf16Append(a: string, b: string)
    ensures Utf16Length(a + b) == Utf16Length(a) + Utf16Length(b)
  {
    if a == [] {
      assert a + b == b;
    } else {
      assert (a + b)[1..] == a[1..] + b;
      Utf16Append(a[1..], b);
    }
  }

  // ---------------------------------------------------------------- numerals

  predicate IsDigit(c: char) {
    '0' <= c <= '9'
  }

  predicate IsDigits(s: string) {
    forall i | 0 <= i < |s| :: IsDigit(s[i])
  }

  /** A numeral holds no character other than digits. */
  lemma NotInDigits(s: string, c: char)
    requires IsDigits(s) && !IsDigit(c)
    ensures c !in s
  {
  }

  /** The value of a decimal numeral, most significant digit first. */
  function DigitsValue(s: string): nat
    requires IsDigits(s)
  {
    if s == [] then 0
    else DigitsValue(s[..|s| - 1]) * 10 + (s[|s| - 1] as int - '0' as int)
  }

  /** `String(n)` for a non-negative integer: its shortest decimal numeral. */
  function NatToString(n: nat): (r: string)
    ensures r != [] && IsDigits(r)
    ensures DigitsValue(r) == n
    ensures |r| == 1 || r[0] != '0'
    ensures n < 10 <==> |r| == 1
  {
    if n < 10 then [('0' as int + n) as char]
    else
      var r := NatToString(n / 10) + [('0' as int + n % 10) as char];
      assert r[..|r| - 1] == NatToString(n / 10);
      r
  }

  /** `String(i)` for any integer. */
  function IntToString(i: int): (r: string)
    ensures r != []
    ensures i >= 0 ==> r == NatToString(i)
    ensures i < 0 ==> r[0] == '-' && r[1..] == NatToString(-i)
  {
    if i < 0 then "-" + NatToString(-i) else NatToString(i)
  }

  /** The longest prefix of `s` made of decimal digits. */
  function DigitPrefix(s: string): (r: string)
    ensures |r| <= |s| && r == s[..|r|] && IsDigits(r)
    ensures |r| == |s| || !IsDigit(s[|r|])
  {
    if s != [] && IsDigit(s[0]) then [s[0]] + DigitPrefix(s[1..]) else []
  }

  /** `parseInt(s, 10)`: leading white space is skipped, then an optional
      sign and the longest run of digits are read; no digits gives NaN,
      written `None`. */
  function ParseInt(s: string): Option<int> {
    var t := TrimStart(s);
    var negative := t != [] && t[0] == '-';
    var unsigned := if t != [] && (t[0] == '-' || t[0] == '+') then t[1..] else t;
    var digits := DigitPrefix(unsigned);
    var magnitude: int := DigitsValue(digits);
    if digits == [] then None
    else if negative then Some(-magnitude)
    else Some(magnitude)
  }

  /** `parseInt` gives a number only when `s` holds a digit, and a
      negative one only when `s` holds a minus sign. */
  lemma ParseIntNeedsDigit(s: string)
    ensures ParseInt(s).Some? ==> exists i | 0 <= i < |s| :: IsDigit(s[i])
    ensures ParseInt(s).Some? && ParseInt(s).value < 0 ==> '-' in s
  {
    var t := TrimStart(s);
    var k := |s| - |t|;
    if ParseInt(s).Some? {
      var sign := if t != [] && (t[0] == '-' || t[0] == '+') then 1 else 0;
      var unsigned := t[sign..];
      assert DigitPrefix(unsigned) != [];
      assert IsDigit(s[k + sign]);
      if ParseInt(s).value < 0 {
        assert s[k] == '-';
      }
    }
  }

  /** `parseInt` reads back what `String` wrote for a non-negative integer. */
  lemma ParseIntNatToString(n: nat)
    ensures ParseInt(NatToString(n)) == Some(n)
  {
    var s := NatToString(n);
    ParseIntOfDigits(s);
  }

  /** `parseInt` reads back what `String` wrote for any integer, a
      negative one included. */
  lemma ParseIntIntToString(i: int)
    ensures ParseInt(IntToString(i)) == Some(i)
  {
    if i >= 0 {
      ParseIntNatToString(i);
    } else {
      var s := IntToString(i);
      var d := NatToString(-i);
      assert s == "-" + d && s[1..] == d;
      assert !IsWhiteSpace(s[0]);
      assert TrimStart(s) == s;
      DigitPrefixOfDigits(d);
    }
  }

  /** `parseInt` reads a numeral as its value. */
  lemma ParseIntOfDigits(s: string)
    requires s != [] && IsDigits(s)
    ensures ParseInt(s) == Some(DigitsValue(s))
  {
    assert !IsWhiteSpace(s[0]) && s[0] != '-' && s[0] != '+';
    assert TrimStart(s) == s;
    DigitPrefixOfDigits(s);
  }

  /** A numeral is its own longest digit prefix. */
  lemma {:induction false} DigitPrefixOfDigits(s: string)
    requires IsDigits(s)
    ensures DigitPrefix(s) == s
  {
    if s != [] {
      DigitPrefixOfDigits(s[1..]);
    }
  }
}

=== FILE: js_value.dfy ===
/** JavaScript values as the modelled code sees them, and plain objects
    (records) with string keys kept in insertion order. */
module JsValue {
  import opened Wrappers
  import opened Sequences

  /** A JavaScript number. Finite numbers are modelled exactly as reals;
      the infinities are not modelled. */
  datatype Num = Finite(r: real) | NaN {

    /** `Boolean(n)`: NaN and 0 are falsy. */
    predicate Truthy() {
      Finite? && r != 0.0
    }

    /** `Math.floor(n)`; NaN stays NaN. */
    function Floor(): (f: Num)
      ensures f.NaN? <==> NaN?
      ensures f.Finite? ==> f.r == f.r.Floor as real && f.r <= r < f.r + 1.0
    {
      match this
      case Finite(x) => Finite(x.Floor as real)
      case NaN => NaN
    }
  }

  /** ECMAScript's ToIntegerOrInfinity on a finite number: truncation
      toward zero. */
  function Trunc(x: real): (i: int)
    ensures x >= 0.0 ==> i as real <= x < i as real + 1.0
    ensures x < 0.0 ==> i as real - 1.0 < x <= i as real
  {
    if x >= 0.0 then x.Floor else -((-x).Floor)
  }

  /** The cell values that flow through the modelled code. */
  datatype Value = Undefined | Null | Bool(b: bool) | Str(s: string) | Number(n: Num) {

    /** `Boolean(v)`: undefined, null, false, "", 0 and NaN are falsy. */
    predicate Truthy() {
      match this
      case Undefined => false
      case Null => false
      case Bool(b) => b
      case Str(s) => s != []
      case Number(n) => n.Truthy()
    }
  }

  /** `Number(text)`: JavaScript's string-to-number conversion, which the
      model leaves abstract and takes as a parameter. */
  type NumberParser = string -> Num

  /** `String(n)` for a finite number, likewise abstract. */
  type NumberFormatter = real -> string

  /** `String(v)`, given the number formatter. */
  function ToText(v: Value, show: NumberFormatter): string {
    match v
    case Undefined => "undefined"
    case Null => "null"
    case Bool(b) => if b then "true" else "false"
    case Str(s) => s
    case Number(n) => if n.NaN? then "NaN" else show(n.r)
  }

  // ---------------------------------------------------------------- records

  /** A plain object: its own string-keyed properties in insertion order. */
  type Record = seq<(string, Value)>

  /** The keys in order (`Object.keys`). */
  function Keys(rec: Record): (ks: seq<string>)
    ensures |ks| == |rec|
    ensures forall i | 0 <= i < |rec| :: ks[i] == rec[i].0
  {
    seq(|rec|, i requires 0 <= i < |rec| => rec[i].0)
  }

  /** No key occurs twice, as in every JavaScript object. */
  predicate UniqueKeys(rec: Record) {
    Distinct(Keys(rec))
  }

  /** `rec[key]`: the stored value, or undefined when the key is absent. */
  function Get(rec: Record, key: string): (v: Value)
    ensures key !in Keys(rec) ==> v == Undefined
  {
    match Find(Keys(rec), key)
    case None => Undefined
    case Some(i) => rec[i].1
  }

  /** A present key reads the value of the first entry carrying it. */
  lemma GetFirst(rec: Record, key: string)
    requires key in Keys(rec)
    ensures exists i | 0 <= i < |rec| :: rec[i].0 == key && key !in Keys(rec)[..i] && Get(rec, key) == rec[i].1
  {
    var i := Find(Keys(rec), key).value;
    assert rec[i].0 == key && key !in Keys(rec)[..i] && Get(rec, key) == rec[i].1;
  }

  /** In a record with unique keys each entry is what its key reads. */
  lemma GetEntry(rec: Record, i: nat)
    requires UniqueKeys(rec) && i < |rec|
    ensures Get(rec, rec[i].0) == rec[i].1
  {
    FindAt(Keys(rec), rec[i].0, i);
  }

  /** `rec[key] = v`: an existing key keeps its position and takes the new
      value; a new key is appended at the end. */
  function Put(rec: Record, key: string, v: Value): (r: Record)
    requires UniqueKeys(rec)
    ensures UniqueKeys(r)
    ensures key in Keys(rec) ==> Keys(r) == Keys(rec)
    ensures key !in Keys(rec) ==> Keys(r) == Keys(rec) + [key]
    ensures Get(r, key) == v
    ensures forall k | k != key :: Get(r, k) == Get(rec, k)
  {
    match Find(Keys(rec), key)
    case Some(i) =>
      var r := rec[i := (key, v)];
      assert Keys(r) == Keys(rec);
      r
    case None =>
      var r := rec + [(key, v)];
      assert Keys(r) == Keys(rec) + [key];
      PutNewKey(rec, key, v);
      r
  }

  /** Appending an entry under a new key. */
  lemma PutNewKey(rec: Record, key: string, v: Value)
    requires UniqueKeys(rec) && key !in Keys(rec)
    ensures UniqueKeys(rec + [(key, v)])
    ensures Get(rec + [(key, v)], key) == v
    ensures forall k | k != key :: Get(rec + [(key, v)], k) == Get(rec, k)
  {
    var r := rec + [(key, v)];
    assert Keys(r) == Keys(rec) + [key];
    assert Keys(r)[..|rec|] == Keys(rec);
    FindAt(Keys(r), key, |rec|);
    forall k | k != key
      ensures Get(r, k) == Get(rec, k)
    {
      AppendKeepsGet(rec, (key, v), k);
    }
  }

  /** An appended entry does not change what an earlier key reads. */
  lemma AppendKeepsGet(rec: Record, entry: (string, Value), k: string)
    requires k != entry.0
    ensures Get(rec + [entry], k) == Get(rec, k)
  {
    var r := rec + [entry];
    assert Keys(r) == Keys(rec) + [entry.0];
    match Find(Keys(rec), k)
    case None =>
    case Some(j) =>
      assert Keys(r)[..j] == Keys(rec)[..j];
      FindAt(Keys(r), k, j);
  }
}

=== FILE: normalize_to_seconds.dfy ===
/** `normalizeToSeconds(type, value)`: a date, a time of day, a date-time
    or a duration, as whole epoch seconds, with every thrown error caught
    and turned into the sentinel 0. */
module NormalizeToSeconds {
  import opened Wrappers
  import opened JsText
  import opened JsValue
  import opened JsDate

  /** What the function depends on besides its arguments: the clock and
      zone (`DateTime.now()`), `Number(text)`, and luxon's
      `DateTime.fromISO(value)`, given as the parsed instant in epoch
      seconds or `None` for an invalid DateTime. */
  datatype Env = Env(clock: Clock, toNumber: NumberParser, fromIso: Value -> Option<real>)

  /** `Number` reads a decimal numeral as its value, as JavaScript's
      conversion does for the numerals the time picker writes. */
  ghost predicate ReadsNumerals(toNumber: NumberParser) {
    forall s {:trigger toNumber(s)} | s != [] && IsDigits(s) :: toNumber(s) == Finite(DigitsValue(s) as real)
  }

  /** How the body of the `try` block ends. */
  datatype Completion = Returned(n: Num) | Threw(message: string)

  /** `Number(value)` for a string or number argument. */
  function ToNumber(value: Value, toNumber: NumberParser): Num
    requires value.Str? || value.Number?
  {
    if value.Str? then toNumber(value.s) else value.n
  }

  /** A local wall-clock time in seconds as luxon returns it from
      `toSeconds()`: NaN when it lies outside the Date range. */
  function LocalToEpoch(local: int, offset: int): (n: Num)
    ensures n.Finite? <==> InDateRange(local)
    ensures n.Finite? ==> n.r == (local - offset) as real
  {
    if InDateRange(local) then Finite((local - offset) as real) else NaN
  }

  /** The "time" branch: split "HH:MM" at ':', convert both parts with
      `Number`, and set them on today's date with seconds and
      milliseconds zeroed. A value that is not a string has no `split`;
      a NaN part is rejected by luxon's `set`; both throw. A missing
      minute part leaves the current minute in place. */
  function TimeOfDay(value: Value, env: Env): (c: Completion)
    requires value.Str? || value.Number?
    ensures value.Number? ==> c.Threw?
    ensures c.Returned? && c.n.Finite? ==> c.n.r == c.n.r.Floor as real
  {
    if value.Number? then Threw("value.split is not a function")
    else
      var parts := Split(value.s, ':');
      var hours := env.toNumber(parts[0]);
      var minutes := if |parts| > 1 then Some(env.toNumber(parts[1])) else None;
      if hours.NaN? || (minutes.Some? && minutes.value.NaN?) then Threw("Invalid unit value")
      else
        var offset := env.clock.offset;
        var sod := LocalSecondOfDay(env.clock.now, offset);
        var midnight := env.clock.now + offset - sod;
        var minute := if minutes.Some? then Trunc(minutes.value.r) else sod % 3600 / 60;
        Returned(LocalToEpoch(midnight + 3600 * Trunc(hours.r) + 60 * minute, offset))
  }

  /** The `switch` inside the `try` block. */
  function Evaluate(kind: string, value: Value, env: Env): (c: Completion)
    requires value.Str? || value.Number?
    ensures c.Threw? <==> kind !in {"date", "time", "datetime", "duration"}
                          || (kind == "time" && TimeOfDay(value, env).Threw?)
    ensures c.Returned? && c.n.Finite? ==> c.n.r == c.n.r.Floor as real
    ensures (kind == "date" || kind == "datetime") && env.fromIso(value).None? ==> c == Returned(NaN)
    ensures kind == "datetime" && env.fromIso(value).Some? ==>
              c.Returned? && c.n.Finite? && c.n.r <= env.fromIso(value).value < c.n.r + 1.0
    ensures kind == "date" && env.fromIso(value).Some? ==>
              && c.Returned? && c.n.Finite?
              && c.n.r <= env.fromIso(value).value < c.n.r + SecondsPerDay as real
              && LocalSecondOfDay(c.n.r.Floor, env.clock.offset) == 0
  {
    match kind
    case "date" =>
      (match env.fromIso(value)
       case None => Returned(NaN)
       case Some(t) => Returned(Finite(DayStart(t.Floor, env.clock.offset) as real)))
    case "time" => TimeOfDay(value, env)
    case "datetime" =>
      (match env.fromIso(value)
       case None => Returned(NaN)
       case Some(t) => Returned(Finite(t.Floor as real)))
    case "duration" => Returned(ToNumber(value, env.toNumber).Floor())
    case _ => Threw("Unsupported type: " + kind)
  }

  /** `normalizeToSeconds`: whatever the body returns, or 0 when it throws.
      Every number returned is a whole number of seconds. */
  function Normalize(kind: string, value: Value, env: Env): (r: Num)
    requires value.Str? || value.Number?
    ensures r.Finite? ==> r.r == r.r.Floor as real
    ensures Evaluate(kind, value, env).Threw? ==> r == Finite(0.0)
    ensures Evaluate(kind, value, env).Returned? ==> r == Evaluate(kind, value, env).n
    ensures kind !in {"date", "time", "datetime", "duration"} ==> r == Finite(0.0)
    ensures r.NaN? ==> kind in {"date", "datetime", "duration", "time"}
  {
    match Evaluate(kind, value, env)
    case Returned(n) => n
    case Threw(_) => Finite(0.0)
  }

  /** "duration" is `Math.floor` of the numeric value: the largest whole
      number not above it, or NaN for NaN. It never throws. */
  lemma DurationIsFloor(value: Value, env: Env)
    requires value.Str? || value.Number?
    ensures var x := ToNumber(value, env.toNumber);
            var r := Normalize("duration", value, env);
            && (x.NaN? <==> r.NaN?)
            && (x.Finite? ==> r.Finite? && r.r <= x.r < r.r + 1.0 && r.r == r.r.Floor as real)
  {
  }

  /** "time" with "HH:MM" for whole numbers of hours and minutes is today's
      local midnight plus 3600·HH + 60·MM seconds, and the local clock at
      that instant reads HH:MM:00 (hours and minutes taken modulo a day). */
  lemma TimeIsTodayAt(hh: string, mm: string, h: int, m: int, env: Env)
    requires ':' !in hh && ':' !in mm
    requires env.toNumber(hh) == Finite(h as real) && env.toNumber(mm) == Finite(m as real)
    requires InDateRange(DayStart(env.clock.now, env.clock.offset) + env.clock.offset + 3600 * h + 60 * m)
    ensures var today := DayStart(env.clock.now, env.clock.offset);
            Normalize("time", Str(hh + ":" + mm), env) == Finite((today + 3600 * h + 60 * m) as real)
    ensures var today := DayStart(env.clock.now, env.clock.offset);
            LocalSecondOfDay(today + 3600 * h + 60 * m, env.clock.offset)
              == (3600 * h + 60 * m) % SecondsPerDay
  {
    var value := Str(hh + ":" + mm);
    TimeOfDayParts(hh, mm, h, m, env);
    assert Evaluate("time", value, env) == TimeOfDay(value, env);
    TodayAtClock(env.clock, 3600 * h + 60 * m);
  }

  /** The "time" branch on "HH:MM" sets both parts on today's date. */
  lemma TimeOfDayParts(hh: string, mm: string, h: int, m: int, env: Env)
    requires ':' !in hh && ':' !in mm
    requires env.toNumber(hh) == Finite(h as real) && env.toNumber(mm) == Finite(m as real)
    ensures var offset := env.clock.offset;
            var local := DayStart(env.clock.now, offset) + offset + 3600 * h + 60 * m;
            TimeOfDay(Str(hh + ":" + mm), env) == Returned(LocalToEpoch(local, offset))
  {
    SplitOnce(hh, mm, ':');
    assert Trunc(h as real) == h && Trunc(m as real) == m;
  }

  /** `seconds` after today's local midnight the local clock reads
      `seconds` modulo a day. */
  lemma TodayAtClock(clock: Clock, seconds: int)
    ensures LocalSecondOfDay(DayStart(clock.now, clock.offset) + seconds, clock.offset)
            == seconds % SecondsPerDay
  {
    var d := DayStart(clock.now, clock.offset);
    assert (d + clock.offset) % SecondsPerDay == 0;
  }

  /** An unsupported kind throws inside the `try` and yields 0. */
  lemma UnsupportedKindIsZero(kind: string, value: Value, env: Env)
    requires value.Str? || value.Number?
    requires kind != "date" && kind != "time" && kind != "datetime" && kind != "duration"
    ensures Evaluate(kind, value, env).Threw?
    ensures Normalize(kind, value, env) == Finite(0.0)
  {
  }

  /** For one ISO string "date" is the start of the local day of the
      "datetime" instant: never later, less than a day earlier, and
      falling on a local midnight. "datetime" is the parsed instant rounded
      down to a whole second, and "date" lies less than a day before the
      parsed instant. An invalid string gives NaN for both. */
  lemma DateStartsDatetimeDay(value: Value, env: Env)
    requires value.Str? || value.Number?
    ensures var d := Normalize("date", value, env);
            var dt := Normalize("datetime", value, env);
            && (env.fromIso(value).None? ==> d.NaN? && dt.NaN?)
            && (env.fromIso(value).Some? ==>
                  && d.Finite? && dt.Finite?
                  && d.r <= dt.r < d.r + SecondsPerDay as real
                  && LocalSecondOfDay(d.r.Floor, env.clock.offset) == 0)
    ensures var d := Normalize("date", value, env);
            var dt := Normalize("datetime", value, env);
            env.fromIso(value).Some? ==>
              && dt.Finite? && dt.r <= env.fromIso(value).value < dt.r + 1.0
              && d.Finite? && d.r <= env.fromIso(value).value < d.r + SecondsPerDay as real
  {
  }

  /** A "time" value whose parts are not both numbers, or that is not a
      string at all, is caught and comes back as 0. */
  lemma TimeFailureIsZero(value: Value, env: Env)
    requires value.Str? || value.Number?
    requires value.Number?
             || env.toNumber(Split(value.s, ':')[0]).NaN?
             || (|Split(value.s, ':')| > 1 && env.toNumber(Split(value.s, ':')[1]).NaN?)
    ensures Normalize("time", value, env) == Finite(0.0)
  {
  }
}

=== FILE: sequences.dfy ===
/** Searching sequences: the first occurrence of an element, and
    sequences without repeated elements. */
module Sequences {
  import opened Wrappers

  /** The position of the first occurrence of `x` in `s`
      (`indexOf`, and the key lookup of a plain object). */
  function Find<T(==)>(s: seq<T>, x: T): (r: Option<nat>)
    ensures r.None? <==> x !in s
    ensures r.Some? ==> r.value < |s| && s[r.value] == x && x !in s[..r.value]
  {
    if s == [] then None
    else if s[0] == x then Some(0)
    else match Find(s[1..], x)
      case None => None
      case Some(i) => assert s[..i + 1] == [s[0]] + s[1..][..i]; Some(i + 1)
  }

  /** A first occurrence is what `Find` reports. */
  lemma FindAt<T>(s: seq<T>, x: T, j: nat)
    requires j < |s| && s[j] == x && x !in s[..j]
    ensures Find(s, x) == Some(j)
  {
  }

  /** No element occurs twice. */
  predicate Distinct<T(==)>(s: seq<T>) {
    forall i, j | 0 <= i < j < |s| :: s[i] != s[j]
  }
}

=== FILE: table_filter.dfy ===
/** The call-log table's status filter: the selected status lives in the
    `call_status` query parameter, and every change sends the table back
    to page 1. */
module TableFilter {
  import opened Wrappers
  import opened JsText
  import opened Sequences

  /** A URLSearchParams list: name/value pairs in order; names may repeat. */
  type Params = seq<(string, string)>

  const StatusParam := "call_status"
  const PageParam := "page"

  /** The statuses offered besides "all". */
  const Statuses: seq<string> :=
    ["initiated", "ringing", "in-progress", "completed", "failed", "busy", "no-answer", "canceled"]

  /** How many pairs carry `name`. */
  function Occurrences(p: Params, name: string): nat {
    if p == [] then 0
    else (if p[0].0 == name then 1 else 0) + Occurrences(p[1..], name)
  }

  /** `params.get(name)`: the value of the first pair named `name`. */
  function Get(p: Params, name: string): (v: Option<string>)
    ensures v.None? <==> Occurrences(p, name) == 0
    ensures v.Some? ==> exists i | 0 <= i < |p| :: p[i] == (name, v.value) && FirstNamed(p, name, i)
  {
    if p == [] then None
    else if p[0].0 == name then Some(p[0].1)
    else
      var v := Get(p[1..], name);
      GetLater(p, name, v);
      v
  }

  /** Pair `i` carries `name` and no earlier pair does. */
  predicate FirstNamed(p: Params, name: string, i: nat)
    requires i < |p|
  {
    p[i].0 == name && forall j | 0 <= j < i :: p[j].0 != name
  }

  /** A first pair of the tail, past a head with another name, is a first
      pair of the whole list. */
  lemma GetLater(p: Params, name: string, v: Option<string>)
    requires p != [] && p[0].0 != name
    requires v.Some? ==> exists i | 0 <= i < |p[1..]| :: p[1..][i] == (name, v.value) && FirstNamed(p[1..], name, i)
    ensures v.Some? ==> exists i | 0 <= i < |p| :: p[i] == (name, v.value) && FirstNamed(p, name, i)
  {
    if v.Some? {
      var i :| 0 <= i < |p[1..]| && p[1..][i] == (name, v.value) && FirstNamed(p[1..], name, i);
      assert p[i + 1] == (name, v.value);
      assert FirstNamed(p, name, i + 1);
    }
  }

  /** `params.delete(name)`: every pair named `name` is removed; the rest
      keep their order. */
  function Delete(p: Params, name: string): (r: Params)
    ensures Occurrences(r, name) == 0
    ensures forall k | k != name :: Occurrences(r, k) == Occurrences(p, k) && Get(r, k) == Get(p, k)
  {
    if p == [] then []
    else
      var r := Delete(p[1..], name);
      if p[0].0 == name then
        DropAgrees(p, name);
        r
      else
        assert p == [p[0]] + p[1..];
        ConsAgrees(p[0], r, p[1..], name);
        [p[0]] + r
  }

  /** A leading pair named `name` counts for no other name and is never
      what another name reads. */
  lemma DropAgrees(p: Params, name: string)
    requires p != [] && p[0].0 == name
    ensures forall k | k != name :: Occurrences(p, k) == Occurrences(p[1..], k) && Get(p, k) == Get(p[1..], k)
  {
  }

  /** The same pair put in front of two lists that agree on every name
      but `name` leaves them agreeing. */
  lemma ConsAgrees(x: (string, string), r: Params, q: Params, name: string)
    requires forall k | k != name :: Occurrences(r, k) == Occurrences(q, k) && Get(r, k) == Get(q, k)
    ensures forall k | k != name ::
              Occurrences([x] + r, k) == Occurrences([x] + q, k) && Get([x] + r, k) == Get([x] + q, k)
  {
    var xr, xq := [x] + r, [x] + q;
    assert xr[0] == x && xr[1..] == r;
    assert xq[0] == x && xq[1..] == q;
    forall k | k != name
      ensures Occurrences(xr, k) == Occurrences(xq, k) && Get(xr, k) == Get(xq, k)
    {
      assert Occurrences(xr, k) == (if x.0 == k then 1 else 0) + Occurrences(r, k);
      assert Occurrences(xq, k) == (if x.0 == k then 1 else 0) + Occurrences(q, k);
      if x.0 != k {
        assert Get(xr, k) == Get(r, k) && Get(xq, k) == Get(q, k);
      }
    }
  }

  /** The first pair named `name` takes `value`; later ones are removed. */
  function SetFirst(p: Params, name: string, value: string): (r: Params)
    requires Occurrences(p, name) > 0
    ensures Occurrences(r, name) == 1 && Get(r, name) == Some(value)
    ensures forall k | k != name :: Occurrences(r, k) == Occurrences(p, k) && Get(r, k) == Get(p, k)
  {
    if p[0].0 == name then [(name, value)] + Delete(p[1..], name)
    else [p[0]] + SetFirst(p[1..], name, value)
  }

  /** `params.set(name, value)`: afterwards exactly one pair carries
      `name`, with `value`, in the place of the first former one or
      appended at the end; pairs with other names are untouched. */
  function Set(p: Params, name: string, value: string): (r: Params)
    ensures Occurrences(r, name) == 1 && Get(r, name) == Some(value)
    ensures forall k | k != name :: Occurrences(r, k) == Occurrences(p, k) && Get(r, k) == Get(p, k)
  {
    if Occurrences(p, name) > 0 then SetFirst(p, name, value)
    else
      AppendParam(p, name, value);
      p + [(name, value)]
  }

  lemma {:induction false} AppendParam(p: Params, name: string, value: string)
    requires Occurrences(p, name) == 0
    ensures Occurrences(p + [(name, value)], name) == 1 && Get(p + [(name, value)], name) == Some(value)
    ensures forall k | k != name :: Occurrences(p + [(name, value)], k) == Occurrences(p, k)
                                    && Get(p + [(name, value)], k) == Get(p, k)
  {
    if p != [] {
      AppendParam(p[1..], name, value);
      assert (p + [(name, value)])[1..] == p[1..] + [(name, value)];
    }
  }

  /** `handleChange(val)`: "all" drops the status parameter, any other
      value sets it; then the page is reset to "1". */
  function HandleChange(p: Params, val: string): (r: Params)
    ensures Get(r, PageParam) == Some("1") && Occurrences(r, PageParam) == 1
    ensures val == "all" ==> Occurrences(r, StatusParam) == 0
    ensures val != "all" ==> Get(r, StatusParam) == Some(val) && Occurrences(r, StatusParam) == 1
    ensures forall k | k != StatusParam && k != PageParam :: Get(r, k) == Get(p, k)
  {
    var q := if val == "all" then Delete(p, StatusParam) else Set(p, StatusParam, val);
    Set(q, PageParam, "1")
  }

  /** `currentStatus`: the status parameter, or "all" when it is absent or
      empty. */
  function CurrentStatus(p: Params): (status: string)
    ensures status != "all" ==> Get(p, StatusParam) == Some(status) && status != ""
    ensures Get(p, StatusParam).None? || Get(p, StatusParam) == Some("") ==> status == "all"
    ensures Get(p, StatusParam).Some? && Get(p, StatusParam).value != "" ==> status == Get(p, StatusParam).value
  {
    match Get(p, StatusParam)
    case None => "all"
    case Some(s) => if s == "" then "all" else s
  }

  /** After a change the select shows what was chosen (an empty choice
      shows as "all"). */
  lemma CurrentStatusAfterChange(p: Params, val: string)
    ensures CurrentStatus(HandleChange(p, val)) == if val == "" then "all" else val
  {
  }

  // ---------------------------------------------------------------- order of the other parameters

  /** Deleting a name from a list without it changes nothing. */
  lemma {:induction false} DeleteAbsent(p: Params, name: string)
    requires Occurrences(p, name) == 0
    ensures Delete(p, name) == p
  {
    if p != [] {
      DeleteAbsent(p[1..], name);
    }
  }

  /** Deleting two names in either order gives the same list. */
  lemma {:induction false} DeleteCommutes(p: Params, a: string, b: string)
    ensures Delete(Delete(p, a), b) == Delete(Delete(p, b), a)
  {
    if p != [] {
      DeleteCommutes(p[1..], a, b);
    }
  }

  /** Setting a name and then deleting it is deleting it. */
  lemma {:induction false} DeleteAfterSet(p: Params, name: string, value: string)
    ensures Delete(Set(p, name, value), name) == Delete(p, name)
  {
    if Occurrences(p, name) > 0 {
      DeleteAfterSetFirst(p, name, value);
    } else {
      DeleteAppend(p, [(name, value)], name);
      DeleteAbsent(p, name);
    }
  }

  lemma {:induction false} DeleteAfterSetFirst(p: Params, name: string, value: string)
    requires Occurrences(p, name) > 0
    ensures Delete(SetFirst(p, name, value), name) == Delete(p, name)
  {
    if p[0].0 == name {
      var r := SetFirst(p, name, value);
      assert r[1..] == Delete(p[1..], name);
      DeleteAbsent(Delete(p[1..], name), name);
    } else {
      DeleteAfterSetFirst(p[1..], name, value);
    }
  }

  lemma {:induction false} DeleteAppend(a: Params, b: Params, name: string)
    ensures Delete(a + b, name) == Delete(a, name) + Delete(b, name)
  {
    if a == [] {
      assert a + b == b;
    } else {
      assert (a + b)[1..] == a[1..] + b;
      DeleteAppend(a[1..], b, name);
    }
  }

  /** Every parameter other than the status and the page survives a
      change unchanged and in its original order. */
  lemma OtherParamsUnchanged(p: Params, val: string)
    ensures Delete(Delete(HandleChange(p, val), StatusParam), PageParam)
            == Delete(Delete(p, StatusParam), PageParam)
  {
    var q := if val == "all" then Delete(p, StatusParam) else Set(p, StatusParam, val);
    var r := Set(q, PageParam, "1");
    DeleteCommutes(r, StatusParam, PageParam);
    DeleteAfterSet(q, PageParam, "1");
    DeleteCommutes(q, PageParam, StatusParam);
    if val == "all" {
      DeleteAbsent(Delete(p, StatusParam), StatusParam);
    } else {
      DeleteAfterSet(p, StatusParam, val);
    }
  }

  // ---------------------------------------------------------------- idempotence

  /** Setting the value a name already has, once, changes nothing. */
  lemma {:induction false} SetSame(p: Params, name: string, value: string)
    requires Occurrences(p, name) == 1 && Get(p, name) == Some(value)
    ensures Set(p, name, value) == p
  {
    SetFirstSame(p, name, value);
  }

  lemma {:induction false} SetFirstSame(p: Params, name: string, value: string)
    requires Occurrences(p, name) == 1 && Get(p, name) == Some(value)
    ensures SetFirst(p, name, value) == p
  {
    if p[0].0 == name {
      DeleteAbsent(p[1..], name);
    } else {
      SetFirstSame(p[1..], name, value);
    }
  }

  /** Choosing the same status twice gives the parameters of choosing it once. */
  lemma HandleChangeIdempotent(p: Params, val: string)
    ensures HandleChange(HandleChange(p, val), val) == HandleChange(p, val)
  {
    var r := HandleChange(p, val);
    if val == "all" {
      DeleteAbsent(r, StatusParam);
    } else {
      SetSame(r, StatusParam, val);
    }
    SetSame(r, PageParam, "1");
  }

  // ---------------------------------------------------------------- labels

  /** The option label: the first character upper-cased and the first "-"
      after it turned into a space. */
  function StatusLabel(s: string): (shown: string)
    ensures |shown| == |s|
    ensures s != [] ==> shown[0] == UpperChar(s[0])
  {
    if s == [] then [] else [UpperChar(s[0])] + ReplaceFirst(s[1..], '-', ' ')
  }

  /** Character by character: after the head, only the first hyphen
      changes, into a space. */
  lemma StatusLabelChars(s: string)
    ensures forall i | 1 <= i < |s| ::
              StatusLabel(s)[i] == if s[i] == '-' && '-' !in s[1..i] then ' ' else s[i]
  {
    assert forall i | 1 <= i < |s| :: s[1..][..i - 1] == s[1..i];
  }

  /** A status with a hyphen is labelled with its head upper-cased and
      that first hyphen shown as a space. */
  lemma {:induction false} HyphenLabel(head: char, before: string, after: string)
    requires '-' !in before
    ensures StatusLabel([head] + before + ['-'] + after) == [UpperChar(head)] + before + [' '] + after
  {
    var s := [head] + before + ['-'] + after;
    assert s[1..] == before + ['-'] + after;
    var t := s[1..];
    assert t[|before|] == '-';
    assert t[..|before|] == before;
  }

  /** A status without a hyphen is labelled with its head upper-cased. */
  lemma {:induction false} PlainLabel(head: char, rest: string)
    requires '-' !in rest
    ensures StatusLabel([head] + rest) == [UpperChar(head)] + rest
  {
    assert ([head] + rest)[1..] == rest;
  }

  /** The label of a hyphenated status. */
  lemma NoAnswerLabel()
    ensures StatusLabel("no-answer") == "No answer"
  {
    assert "no-answer" == ['n'] + "o" + ['-'] + "answer";
    assert "No answer" == ['N'] + "o" + [' '] + "answer";
    assert UpperChar('n') == 'N';
    HyphenLabel('n', "o", "answer");
  }

  /** The label of a status without a hyphen. */
  lemma CompletedLabel()
    ensures StatusLabel("completed") == "Completed"
  {
    assert "completed" == ['c'] + "ompleted";
    assert "Completed" == ['C'] + "ompleted";
    assert UpperChar('c') == 'C';
    PlainLabel('c', "ompleted");
  }

  // ---------------------------------------------------------------- the options

  /** A `SelectItem`: the value it selects and the text it shows. */
  datatype Item = Item(value: string, text: string)

  /** The select's options: "All statuses" first, then one option per
      status, in order, labelled by `StatusLabel`. */
  function Options(): (items: seq<Item>)
    ensures |items| == |Statuses| + 1
    ensures items[0] == Item("all", "All statuses")
    ensures forall i | 1 <= i < |items| ::
              items[i].value == Statuses[i - 1] && items[i].text == StatusLabel(Statuses[i - 1])
  {
    [Item("all", "All statuses")]
      + seq(|Statuses|, i requires 0 <= i < |Statuses| => Item(Statuses[i], StatusLabel(Statuses[i])))
  }

  /** No two options select the same value. */
  lemma OptionValuesDistinct()
    ensures Distinct(seq(|Options()|, i requires 0 <= i < |Options()| => Options()[i].value))
  {
    StatusesDistinct();
  }

  /** Choosing any option makes the select show that option. */
  lemma ChosenOptionShown(p: Params, i: nat)
    requires i < |Options()|
    ensures CurrentStatus(HandleChange(p, Options()[i].value)) == Options()[i].value
  {
    StatusesNonEmpty();
    CurrentStatusAfterChange(p, Options()[i].value);
  }

  /** Every status is a non-empty value. */
  lemma StatusesNonEmpty()
    ensures forall k | 0 <= k < |Statuses| :: Statuses[k] != ""
  {
  }

  /** The statuses are pairwise different and none is "all". */
  lemma StatusesDistinct()
    ensures Distinct(Statuses) && "all" !in Statuses
  {
  }
}

=== FILE: wrappers.dfy ===
/** An optional value: `None` stands for JavaScript's `null`/`undefined`
    (or a NaN parse) where the source branches on it. */
module Wrappers {

  datatype Option<+T> = None | Some(value: T) {

    /** The value, or `default` when there is none (JavaScript's `x ?? default`). */
    function GetOr(default: T): T {
      match this
      case Some(v) => v
      case None => default
    }
  }
}
